=== FILE: README.md ===
# Gigya Node SDK: request signing and request building

This project models the core of `gigyasdk.js`, the Node.js client of the Gigya
social/identity web service, and proves properties of that model. The model covers:

- the shallow option merge `merge`;
- the nonce generator `createNonce`;
- the OAuth-style encoder `encode`;
- the signature base string of `createRequestSignature`. This is the base
  string of section 3.4.1 of RFC 5849 over sorted, encoded `name=value` pairs;
- `GigyaSDK.prototype.request` up to the hand-over to `raw`. This covers
  authenticating the caller's parameter object in place, serialising it, and
  building the GET or POST request descriptor;
- how `raw` classifies a parsed response;
- the two validators of signatures that Gigya sends back.

Files and modules:

- `jsvalues.dfy` (`JsValues`): JavaScript primitives and plain objects.
  - A plain object is an ordered list of own properties with distinct names.
  - Assignment keeps an existing property in its place and appends a new one.
- `uri.dfy` (`Uri`): the runtime functions the library calls.
  - `encodeURIComponent`, in full, over UTF-8.
  - `toUpperCase`, on ASCII letters.
  - `querystring.stringify`.
- `encoding.dfy` (`Encoding`): `encode`, proved equal to the percent-encoding
  of section 3.6 of RFC 5849.
- `ordering.dfy` (`Ordering`): `Array.prototype.sort()` on the ASCII strings `encode` produces, where code-point order and JavaScript's UTF-16 code-unit order agree.
  - The sort is proved sorted and a permutation, and its result is unique.
- `merge.dfy` (`Merge`): `merge`, as written and as intended (see Findings).
- `nonce.dfy` (`Nonce`): `createNonce`, with the random draws as a parameter.
- `signature.dfy` (`Signature`): `createRequestSignature`.
  - `createSignature` (base64 HMAC-SHA1 under the base64-decoded secret) is the
    parameter `sign`.
- `client.dfy` (`Client`): the `GigyaSDK` object and `request`.
  - The caller's `params` object is a class whose properties `request`
    assigns in place, so a caller holding a reference sees the writes.
  - A `params` that is not an object (`undefined` when the call has none) is
    a primitive value. The file is in strict mode, so the first assignment
    into it throws a TypeError.
- `response.dfy` (`Response`): the callback convention of `raw` over a parsed
  JSON value.

Parameters stand in for everything non-deterministic or foreign:

- `nowMillis` is `new Date().getTime()`.
- `draw(i)` is the value of `Math.floor(Math.random() * 62)` at iteration `i`
  of the nonce loop.
- `sign(base, secret)` is `createSignature`.

Two facts about the code shape the model:

- the SSL switch is the option `ssl`;
- `request` writes into the caller's `params` object (gigyasdk.js:219-227).

The client (`GigyaSDK` and `request`) uses `merge` as written, with the
inherited-name behaviour described under Findings. `Merge.MergedAsWrittenSpec`
shows that it agrees with the intended merge on every name outside
`Object.prototype`, which covers every option the client reads.

## Model

| member | source | states |
|---|---|---|
| JsValues.Put | gigyasdk.js:220-227 | assigning a property: afterwards it holds the new value, every other property is unchanged, an existing name keeps its position and a new one comes last, and names stay distinct |
| JsValues.SameEntriesPermutation | gigyasdk.js:128 | two objects with the same own properties and values have the same entries, as a multiset |
| Uri.Utf8 | gigyasdk.js:85 | `encodeURIComponent` encodes each character as 1 to 4 octets; an ASCII character is its own single octet |
| Uri.EncodeURIComponent | gigyasdk.js:85 | `encodeURIComponent(s)`: each character of `s` that is an ASCII letter, digit or one of `- _ . ! ~ * ' ( )` as itself, every other character as its UTF-8 octets written `%XY` in upper-case hex |
| Uri.ToUpperCase | gigyasdk.js:136 | `toUpperCase` keeps the length and maps exactly `a`-`z` to `A`-`Z`, leaving every other character alone |
| Uri.QueryPairs | gigyasdk.js:229 | `querystring.stringify` makes one escaped `key=value` pair per own property, in property order |
| Uri.Stringify | gigyasdk.js:229 | `querystring.stringify(params)`: those `key=value` pairs joined with `&` |
| Uri.StringifyIsAscii | gigyasdk.js:229-242 | the serialised parameters are pure ASCII, so their `length` is also their size in octets |
| Encoding.Encode | gigyasdk.js:81-84 | `encode(null)` and `encode('')` are `''` |
| Encoding.EscapeSubDelims | gigyasdk.js:86-91 | the five chained `replace` calls: every `!`, `'`, `(`, `)` and `*` becomes `%21`, `%27`, `%28`, `%29` and `%2A` |
| Encoding.EncodeString | gigyasdk.js:85-91 | `encode` of a non-empty string: `encodeURIComponent` of it, then those five replacements |
| Encoding.EncodeIsPercentEncode | gigyasdk.js:85-91 | `encodeURIComponent` followed by the five replacements is exactly the RFC 5849 percent-encoding, for every string |
| Encoding.PercentEncodeAlphabet | gigyasdk.js:85-91 | the encoding outputs only RFC 3986 unreserved characters, `%` and upper-case hex digits |
| Encoding.EncodeSpec | gigyasdk.js:81-93 | null and `''` give `''`; any other value gives the RFC 5849 encoding of its string form, which is ASCII and contains none of `! ' ( ) *` |
| Ordering.Sort | gigyasdk.js:131 | the sorted pairs are in code-unit order and are a permutation of the input |
| Ordering.SortedUnique | gigyasdk.js:131 | a multiset of strings has only one sorted arrangement |
| Ordering.SortIgnoresOrder | gigyasdk.js:131 | rearranged inputs sort to the same sequence |
| Merge.MergeWith | gigyasdk.js:15-27 | copying `dest` and then redefining accepted names from `from` keeps property names distinct |
| Merge.MergedAsWritten | gigyasdk.js:11-30 | `merge(dest, from)` as written: the fold that also accepts the names `Object.prototype` supplies through `in` |
| Merge.Merged | gigyasdk.js:11-30 | `merge(dest, from)` as intended: the fold that accepts only `dest`'s own names |
| Merge.Merge | gigyasdk.js:11-30 | the two copy loops build exactly the fold over `from` that accepts `dest`'s own names and the names `inherited` from its prototype chain (as written: `Object.prototype`'s; intended: none) |
| Merge.MergedSpec | gigyasdk.js:11-30 | the result has exactly `dest`'s names in `dest`'s order; each takes `from`'s value when `from` has it, else `dest`'s; names only in `from` are dropped |
| Merge.MergeWithAgrees | gigyasdk.js:22-26 | on a name that is not inherited, accepting inherited names changes neither presence nor value |
| Merge.MergedAsWrittenSpec | gigyasdk.js:11-30 | merge as written agrees with the intended merge outside `Object.prototype`'s names: such a name is present exactly when `dest` owns it, with `from`'s value when `from` has it and `dest`'s otherwise |
| Merge.MergeAsWrittenKeepsInherited | gigyasdk.js:22-26 | as written, a property of `from` named like an `Object.prototype` member survives although `dest` does not own it; the intended merge drops it |
| Merge.MergeAsWrittenExample | gigyasdk.js:23 | merging `{toString: "x"}` into `{apiKey: null}` gives names `apiKey, toString` as written and only `apiKey` as intended |
| Nonce.AlphabetIsAlphanumeric | gigyasdk.js:40-46 | the `chars` table holds 62 different symbols, and they are exactly the ASCII letters and digits |
| Nonce.NonceOf | gigyasdk.js:38-54 | the nonce has `size` characters (none when `size` is negative), and character `i` is the table entry of draw `i` |
| Nonce.CreateNonce | gigyasdk.js:50-53 | the counted loop and `join('')` produce exactly that nonce |
| Nonce.NonceIsAlphanumeric | gigyasdk.js:38-54 | every nonce character is an ASCII letter or digit |
| Signature.PushPairs | gigyasdk.js:128-130 | the loop pushes `encode(name) + '=' + encode(value)` for each own parameter, in property order |
| Signature.SecretTypeError | gigyasdk.js:104 | the TypeError of `new Buffer(key, 'base64')` for a key that is not a string: a number is refused as the `string` argument, `undefined`, `null` and booleans as the first argument of `Buffer.from` |
| Signature.CreateSignature | gigyasdk.js:102-107 | `createSignature` succeeds exactly when the key is a string, giving `sign(base, key)`; any other key is the TypeError of `new Buffer`, whose message depends on that key |
| Signature.BaseString | gigyasdk.js:117-136 | the signature base string: the upper-cased method, `&`, `encode` of scheme, `service.domain` and `/method`, `&`, and `encode` of the sorted encoded pairs joined with `&` |
| Signature.MethodTypeError | gigyasdk.js:136 | the TypeError of `options.reqMethod.toUpperCase()` for a `reqMethod` that is not a string: reading a property of `undefined` or `null`, or calling a missing method of a number or boolean |
| Signature.RequestSignatureOf | gigyasdk.js:116-138 | createRequestSignature: `createSignature` of that base string under `secret`, or the TypeError of a non-string `reqMethod` (raised first: reading `toUpperCase` of `undefined` or `null`, or calling it on a number or boolean) or of a non-string `secret` |
| Signature.CreateRequestSignature | gigyasdk.js:116-138 | returns `createSignature` of the base string of the options and parameters under `secret`, or the TypeError of a non-string `reqMethod` (raised first) or of a non-string `secret` |
| Signature.BaseStringParts | gigyasdk.js:116-136 | the base string is the upper-cased method, `&`, the RFC 5849 encoding of scheme, host and path (`https://` exactly when `ssl === true`), `&`, and the encoding of the sorted `&`-joined pairs; neither encoded part contains `&` |
| Signature.BaseStringIgnoresOrder | gigyasdk.js:128-136 | parameter lists that are rearrangements of each other give the same base string and the same signature |
| Signature.SignatureIgnoresInsertionOrder | gigyasdk.js:128-138 | two parameter objects with the same properties and values give the same signature, whatever order they were inserted in |
| Client.ParamObject.Set | gigyasdk.js:220-227 | assigning `params[k] = v` changes the caller's object to the assigned one |
| Client.GigyaSDK.constructor | gigyasdk.js:178-188 | the client's options are merge as written of the defaults and the configuration |
| Client.Defaults | gigyasdk.js:178-187 | the default options `apiKey`, `secret`, `domain`, `service`, `method`, `reqMethod`, `nonceSize` and `ssl`, in that order |
| Client.DefaultsAuth | gigyasdk.js:178-187 | the defaults hold `apiKey` and `secret` null, `reqMethod` `GET`, `nonceSize` 32 and `ssl` false |
| Client.DefaultsTarget | gigyasdk.js:178-187 | the defaults hold `domain` `gigya.com`, `service` `socialize` and `method` null |
| Client.NonceLength | gigyasdk.js:50-52 | the number of nonce-loop iterations for `nonceSize`: a number counts itself (none if negative), `true` counts 1, and `false`, null and undefined count none |
| Client.NonceSizeAsDecimalString | gigyasdk.js:50 | a `nonceSize` written as a decimal string gives as many characters as the number |
| Client.Timestamp | gigyasdk.js:225 | the timestamp is the whole second nearest to the clock reading, within half a second |
| Client.Signed | gigyasdk.js:219-226 | the caller's parameters with `apiKey` and `format` assigned, then `timestamp` and `nonce`: the map that is signed without SSL |
| Client.ParamsAfter | gigyasdk.js:219-228 | the caller's parameters after the assignments: over SSL with `secret`; otherwise the signed map, followed by `sig` when signing succeeded |
| Client.NoParamsError | gigyasdk.js:220 | the TypeError of assigning `apiKey` on a primitive `params`: setting a property of `undefined` or `null`, or creating one on a string, number or boolean |
| Client.AddAuthParams | gigyasdk.js:219-228 | assigns `apiKey`, `format`, and either `secret` or `timestamp`, `nonce`, `sig` into the caller's object; fails exactly when signing fails on the non-SSL path, with signing's error |
| Client.BuildDescriptor | gigyasdk.js:231-245 | builds the request descriptor for the options and the query string |
| Client.Descriptor | gigyasdk.js:231-245 | the request descriptor: host `service.domain`, method `reqMethod`, the base headers; for POST the bare path and the content headers, otherwise the path followed by `?` and the query string |
| Client.RequestOutcome | gigyasdk.js:217-247 | what `request` hands to `raw` for merged options and caller parameters: signing's TypeError when signing is needed and fails, otherwise the descriptor for the serialised parameters and the options with `params` set to that string |
| Client.GigyaSDK.Request | gigyasdk.js:211-248 | the options are merge as written of the client's options and the call's. A primitive `params` (`undefined` when the call has none) throws the TypeError of assigning `apiKey`. Otherwise the caller's object ends up as the authenticated parameters, and the result is the descriptor and options handed to `raw`, or signing's TypeError |
| Client.ApiKeyAndFormatAlwaysSet | gigyasdk.js:220-221 | `apiKey` (from the options) and `format = "json"` are always present afterwards |
| Client.OtherParamsKept | gigyasdk.js:219-228 | every other caller parameter keeps its presence and value |
| Client.ParamsKeepTheirPlace | gigyasdk.js:219-228 | the caller's parameter names stay first, in their order; added names come after them |
| Client.SslSendsSecret | gigyasdk.js:222-223 | over SSL the secret is sent, and `timestamp`, `nonce` and `sig` stay as the caller had them |
| Client.SignedParams | gigyasdk.js:220-227 | the signed map holds `apiKey`, `format`, `timestamp` and the nonce, and every other caller parameter unchanged (including a stale `sig`) |
| Client.SignatureForSpec | gigyasdk.js:220-227 | signing succeeds exactly when `reqMethod` and `secret` are strings; a non-string `reqMethod` gives its TypeError before the secret is looked at; on success the signature is `sign` of the base string over the signed map, under the secret |
| Client.UnsignedSendsTimestampAndNonce | gigyasdk.js:224-226 | without SSL the current timestamp is sent, with an alphanumeric nonce of `nonceSize` characters |
| Client.UnsignedSendsSignature | gigyasdk.js:227 | without SSL the signature is sent when it could be computed, and the caller's `secret` is left alone |
| Client.FreshParamsCarryTheirSignature | gigyasdk.js:225-227 | for a fresh parameter object, what is sent is the signed map followed by `sig` |
| Client.RequestThrowsOnlyWithoutStrings | gigyasdk.js:222-227 | for an object `params` and up to the hand-over to `raw`, `request` throws exactly when it must sign and `reqMethod` or `secret` is not a string |
| Client.ClientWithoutSecretThrows | gigyasdk.js:180-188 | a client configured without `secret` and without `ssl` keeps the default null secret and no SSL; a call whose options add neither (merged over the client's, gigyasdk.js:217) throws when it signs |
| Client.DescriptorShape | gigyasdk.js:231-245 | host is `service.domain`, method is `reqMethod`, User-Agent is `Node-Gigya-SDK`. For POST: the bare path, the form content type and a Content-Length equal to the query string's length. Otherwise: the query string after `?` and no content headers |
| Client.RequestDescriptorShape | gigyasdk.js:229-247 | what reaches `raw` is that descriptor for the ASCII query string, plus the options with `params` set to it and nothing else changed |
| Client.GigyaSDK.ValidateUserSignature | gigyasdk.js:298-302 | a verdict exists exactly when the secret is a string (otherwise `createSignature`'s TypeError); the verdict is true exactly when the signature is the string `createSignature` gives for `timestamp_UID` under the secret |
| Client.GigyaSDK.ValidateFriendSignature | gigyasdk.js:313-317 | a verdict exists exactly when the secret is a string (otherwise `createSignature`'s TypeError); the verdict is true exactly when the signature is the string `createSignature` gives for `timestamp_friendUID_UID` under the secret |
| Client.NumberHasNoUnderscore | gigyasdk.js:299 | a numeric timestamp contains no `_` |
| Client.UserBase | gigyasdk.js:299 | `[timestamp, UID].join('_')`, with `null` and `undefined` written as empty strings |
| Client.FriendBase | gigyasdk.js:314 | `[timestamp, friendUID, UID].join('_')`, with `null` and `undefined` written as empty strings |
| Client.UserBaseInjective | gigyasdk.js:299 | if timestamps contain no `_`, the base `timestamp_UID` determines the timestamp and the UID |
| Client.UserSignatureRoundTrip | gigyasdk.js:298-302 | the signature computed for a timestamp and UID under the client's secret is accepted for them |
| Client.UserSignatureBindsUser | gigyasdk.js:298-302 | when `sign` under the secret tells bases apart and timestamps hold no `_`, a user signature is accepted for exactly the timestamp and UID it was made for |
| Client.FriendBaseInjective | gigyasdk.js:314 | if timestamps and friend UIDs contain no `_`, the base `timestamp_friendUID_UID` determines all three |
| Client.FriendSignatureRoundTrip | gigyasdk.js:313-317 | the signature computed for a timestamp, friend UID and UID under the client's secret is accepted for them |
| Client.FriendSignatureBindsRelation | gigyasdk.js:313-317 | when `sign` under the secret tells bases apart and timestamps and friend UIDs hold no `_`, a friend signature is accepted for exactly the three parts it was made for |
| Client.FriendSignatureIsUserSignature | gigyasdk.js:298-317 | a friend signature is valid exactly when it is the user signature of the UID `friendUID_UID` |
| Client.UserBaseAmbiguousWithUnderscore | gigyasdk.js:299-301 | without that restriction, timestamp `1_2` with UID `3` and timestamp `1` with UID `2_3` accept the same signatures |
| Response.Classify | gigyasdk.js:271-276 | parsed `null` throws; a truthy `errorCode` delivers the result as the error; anything else is delivered as the result; exactly one of the three happens |
| Response.CallbackConvention | gigyasdk.js:272-276 | the callback's first argument is truthy exactly when `errorCode` is; otherwise the response is the second argument |
| Response.MemberIsLast | gigyasdk.js:271-272 | reading `errorCode` finds the last member of that name, or nothing when there is none |
| Response.ErrorCodeZeroSucceeds | gigyasdk.js:272 | `errorCode: 0` counts as success; any other number counts as an error |

## Left out

- Sockets: `createClient`, the event handling of `raw` and its body write are network I/O (gigyasdk.js:63-73, 258-288).
  - The model stops at the arguments `request` passes to `raw`.
- JSON: `JSON.parse` and its SyntaxError are left out. The classification starts from a parsed value.
- Crypto: HMAC-SHA1 and base64 in `createSignature` are foreign calls.
  - They are the `sign` parameter, defined on string keys.
  - A key that is not a string gives `new Buffer`'s TypeError (`Signature.CreateSignature`).
- Error messages: the TypeError messages of `new Buffer` (`Signature.SecretTypeError`), of `toUpperCase` (`Signature.MethodTypeError`) and of the `params` assignment (`Client.NoParamsError`) are worded as current Node.js versions word them. Other Node.js versions word them differently.
- Randomness and time: `Math.random` and `Date` are the parameters `draw` and `nowMillis`.
- Numbers: JavaScript numbers are integers here. Fractions, NaN and Infinity are not modelled in parameters or options.
  - Above 2^53 no JavaScript number is exact, and the model does not round.
  - `JSON.parse` numbers are reals, for truthiness only.
- JsValues.IntToString: it writes every integer in plain decimal. JavaScript writes integers of magnitude 10^21 or more in exponent form (`"1e+21"`), so `encode` (gigyasdk.js:129) and `querystring.stringify` (gigyasdk.js:229) render such a parameter differently from the model.
- Non-primitive values: arrays and objects as parameter values are not modelled. This covers `querystring.stringify`'s repeated keys and `encode`'s object-to-string conversion.
- Property order: integer-like property names, which JavaScript lists first in ascending order, are not modelled. Properties are kept in insertion order.
- Lone surrogates: a parameter name or value holding a lone surrogate makes `encodeURIComponent` in `encode` (gigyasdk.js:85) and `querystring.stringify` (gigyasdk.js:229) throw a URIError. The model's strings hold only Unicode scalar values, so this error path is not modelled.
- The service table and forwarders: the constructor's service table, the wrapper closures and the per-service forwarders (gigyasdk.js:152-177, 189-197, 327-397) are static configuration with one-line delegation.
- Client.GigyaSDK.constructor: `new GigyaSDK()` with no configuration throws a TypeError at `Object.getOwnPropertyNames(from)` (gigyasdk.js:21). The model's configuration is always an object, so this case is not modelled.
- Client.GigyaSDK.Request: `request(undefined, cb)` throws the same TypeError in `merge` (gigyasdk.js:21). The model's call options are always an object, so this case is not modelled.
- Uri.ToUpperCase: it upper-cases ASCII letters only. JavaScript's full Unicode case mapping of a non-ASCII `reqMethod` is not modelled.
- Client.NonceLength: a `nonceSize` string counts as its value only when it is plain decimal digits. Any other string counts 0, although JavaScript would convert strings such as `" 8 "` or `"0x10"` to a number.
- Raw: `raw` (gigyasdk.js:258-288) belongs to the socket side and is not modelled; `request` returns what `raw` returns (gigyasdk.js:247). This leaves out a synchronous throw inside `raw`: it compares `reqMethod.toUpperCase()` with `'POST'` (gigyasdk.js:284), which throws a TypeError for a non-string `reqMethod`. Over SSL that `reqMethod` passes signing, so `Client.RequestOutcome` is `Ok` where the call as a whole throws.

## Findings

| source | as written | input that shows it | evidently intended | confidence | as-written member | corrected member |
|---|---|---|---|---|---|---|
| gigyasdk.js:23 | `name in dest` also accepts names inherited from `Object.prototype`, so such properties of `from` are copied into the result | `merge({apiKey: null}, {toString: "x"})` yields an own `toString` property; the constructor (`Client.GigyaSDK.constructor`, which follows the code as written) does the same with `config = {toString: "x"}` | only `dest`'s own property names are taken from `from` | not executed; follows from the semantics of `in` | Merge.MergeAsWrittenKeepsInherited | Merge.MergedSpec |

=== FILE: client.dfy ===
/** The client object `GigyaSDK` (gigyasdk.js:146-248, 298-317): its options,
    how `request` authenticates the caller's parameter object in place and
    builds the request descriptor handed to `raw`, and the two validators of
    signatures Gigya sends back. */
module Client {
  import opened JsValues
  import opened Uri
  import opened Merge
  import opened Nonce
  import opened Signature

  /** The parameter and option names `request` writes or reads. */
  const ApiKey: string := "apiKey"
  const FormatKey: string := "format"
  const TimestampKey: string := "timestamp"
  const NonceKey: string := "nonce"
  const SigKey: string := "sig"
  const NonceSizeKey: string := "nonceSize"
  const ParamsKey: string := "params"
  const JsonFormat: string := "json"
  const Post: string := "POST"

  const UserAgentHeader: string := "User-Agent"
  const ContentTypeHeader: string := "Content-Type"
  const ContentLengthHeader: string := "Content-Length"
  const UserAgent: string := "Node-Gigya-SDK"
  const FormContentType: string := "application/x-www-form-urlencoded"

  /** The defaults of the constructor (gigyasdk.js:178-187), in their order. */
  function Defaults(): Obj
  {
    Put(Put(Put(Put(Put(Put(Put(Put([],
      ApiKey, Null), SecretKey, Null), DomainKey, Str("gigya.com")),
      ServiceKey, Str("socialize")), MethodKey, Null), ReqMethodKey, Str("GET")),
      NonceSizeKey, Num(32)), SslKey, Bool(false))
  }

  /** Helper: the option names of the defaults are different from each other
      and from the names of `Object.prototype`. */
  lemma OptionKeysDistinct()
    ensures ApiKey != SecretKey && ApiKey != DomainKey && ApiKey != ServiceKey && ApiKey != MethodKey
    ensures ApiKey != ReqMethodKey && ApiKey != NonceSizeKey && ApiKey != SslKey
    ensures SecretKey != DomainKey && SecretKey != ServiceKey && SecretKey != MethodKey
    ensures SecretKey != ReqMethodKey && SecretKey != NonceSizeKey && SecretKey != SslKey
    ensures DomainKey != ServiceKey && DomainKey != MethodKey && DomainKey != ReqMethodKey
    ensures DomainKey != NonceSizeKey && DomainKey != SslKey
    ensures ServiceKey != MethodKey && ServiceKey != ReqMethodKey && ServiceKey != NonceSizeKey && ServiceKey != SslKey
    ensures MethodKey != ReqMethodKey && MethodKey != NonceSizeKey && MethodKey != SslKey
    ensures ReqMethodKey != NonceSizeKey && ReqMethodKey != SslKey && NonceSizeKey != SslKey
    ensures SecretKey !in ObjectPrototypeNames && SslKey !in ObjectPrototypeNames
  {
  }

  /** The values of the defaults that decide how a request is authenticated:
      no API key and no secret, GET without SSL, 32-character nonces. */
  lemma DefaultsAuth()
    ensures Get(Defaults(), ApiKey) == Null && Get(Defaults(), SecretKey) == Null
    ensures Get(Defaults(), ReqMethodKey) == Str("GET") && Get(Defaults(), NonceSizeKey) == Num(32)
    ensures Get(Defaults(), SslKey) == Bool(false)
    ensures Has(Defaults(), SecretKey) && Has(Defaults(), SslKey)
  {
    OptionKeysDistinct();
  }

  /** The values of the defaults that decide where a request goes: the
      `socialize` service on `gigya.com`, no method. */
  lemma DefaultsTarget()
    ensures Get(Defaults(), DomainKey) == Str("gigya.com") && Get(Defaults(), ServiceKey) == Str("socialize")
    ensures Get(Defaults(), MethodKey) == Null
  {
    OptionKeysDistinct();
  }

  /** The headers every request carries. */
  const BaseHeaders: Obj := Put([], UserAgentHeader, Str(UserAgent))

  /** The object handed to `http.request`: host, path, HTTP method and headers. */
  datatype RequestDescriptor = RequestDescriptor(host: string, path: string, httpMethod: JsValue, headers: Obj)

  /** The arguments `request` passes to `raw`: the descriptor and the merged
      options whose `params` now holds the serialised query string. */
  datatype RawCall = RawCall(request: RequestDescriptor, options: Obj)

  /** The `params` object of a call: callers keep a reference to it and
      `request` assigns its properties in place. */
  class ParamObject {
    var props: Obj

    constructor (init: Obj)
      ensures props == init
    {
      props := init;
    }

    /** `params[k] = v`. */
    method Set(k: string, v: JsValue)
      modifies this
      ensures props == Put(old(props), k, v)
    {
      props := Put(props, k, v);
    }
  }

  /** The value of a string of decimal digits, as ToNumber reads it. */
  function DecimalValue(s: string): nat
    requires forall i | 0 <= i < |s| :: IsDigit(s[i])
  {
    if s == [] then 0
    else
      assert IsDigit(s[|s| - 1]);
      10 * DecimalValue(s[..|s| - 1]) + (s[|s| - 1] as int - '0' as int)
  }

  /** How many times the loop `for (i = 0; i < size; i += 1)` of createNonce
      runs for `size = options.nonceSize`: a number counts itself (negative
      ones none), `true` counts 1, a string of decimal digits its value, and
      everything else (null, undefined, `false`, other strings) nothing. */
  function NonceLength(size: JsValue): (n: nat)
    ensures size.Num? ==> n == if size.n < 0 then 0 else size.n
    ensures size.Bool? ==> n == if size.b then 1 else 0
    ensures size.Null? || size.Undefined? ==> n == 0
  {
    match size
    case Num(k) => if k < 0 then 0 else k
    case Bool(b) => if b then 1 else 0
    case Str(s) => if forall i | 0 <= i < |s| :: IsDigit(s[i]) then DecimalValue(s) else 0
    case _ => 0
  }

  /** `Math.round(ms / 1000)`: the nearest whole second, halves rounded up. */
  function Timestamp(nowMillis: int): (t: int)
    ensures t * 1000 - 500 <= nowMillis < t * 1000 + 500
  {
    (nowMillis + 500) / 1000
  }

  /** The caller's parameters after `apiKey` and `format` are assigned. */
  function Prepared(opts: Obj, p: Obj): Obj
  {
    Put(Put(p, ApiKey, Get(opts, ApiKey)), FormatKey, Str(JsonFormat))
  }

  /** The parameters as they stand when the signature is computed: `timestamp`
      and `nonce` assigned too. */
  function Signed(opts: Obj, p: Obj, nowMillis: int, draw: nat -> CharIndex): Obj
  {
    Put(Put(Prepared(opts, p), TimestampKey, Num(Timestamp(nowMillis))),
        NonceKey, Str(NonceOf(NonceLength(Get(opts, NonceSizeKey)), draw)))
  }

  /** The outcome of createRequestSignature over the signed map. */
  function SignatureFor(opts: Obj, p: Obj, nowMillis: int, draw: nat -> CharIndex, sign: Signer): Result<string>
  {
    RequestSignatureOf(opts, Signed(opts, p, nowMillis, draw), sign)
  }

  /** The caller's parameter object after `request`, given the outcome `sig`
      of signing: with `secret` over SSL, otherwise with `timestamp`, `nonce`
      and, when it could be computed, `sig`. */
  function ParamsAfter(opts: Obj, p: Obj, nowMillis: int, draw: nat -> CharIndex, sig: Result<string>): Obj
  {
    if IsSsl(opts) then Put(Prepared(opts, p), SecretKey, Get(opts, SecretKey))
    else
      var s := Signed(opts, p, nowMillis, draw);
      match sig
      case Ok(v) => Put(s, SigKey, Str(v))
      case Err(_) => s
  }

  /** The request descriptor for options `opts` and query string `qs`. */
  function Descriptor(opts: Obj, qs: string): RequestDescriptor
  {
    if Get(opts, ReqMethodKey) == Str(Post) then
      RequestDescriptor(HostOf(opts), PathOf(opts), Get(opts, ReqMethodKey),
        Put(Put(BaseHeaders, ContentTypeHeader, Str(FormContentType)), ContentLengthHeader, Num(|qs|)))
    else
      RequestDescriptor(HostOf(opts), PathOf(opts) + "?" + qs, Get(opts, ReqMethodKey), BaseHeaders)
  }

  /** What `request` hands to `raw` for merged options `opts` and caller
      parameters `p`, or the TypeError createRequestSignature throws. */
  function RequestOutcome(opts: Obj, p: Obj, nowMillis: int, draw: nat -> CharIndex, sign: Signer): Result<RawCall>
  {
    var sig := SignatureFor(opts, p, nowMillis, draw, sign);
    if !IsSsl(opts) && sig.Err? then Err(sig.error)
    else
      var qs := Stringify(ParamsAfter(opts, p, nowMillis, draw, sig));
      Ok(RawCall(Descriptor(opts, qs), Put(opts, ParamsKey, Str(qs))))
  }

  /** What a call passes as `options.params`: a primitive (`undefined` when
      the call has none) or an object that the caller shares with `request`. */
  datatype ParamsArg = Primitive(value: JsValue) | Shared(obj: ParamObject)

  /** `typeof v` for a primitive that is neither `undefined` nor `null`. */
  function TypeOf(v: JsValue): string
  {
    match v
    case Bool(_) => "boolean"
    case Num(_) => "number"
    case _ => "string"
  }

  /** The TypeError that the strict-mode assignment `opts.params.apiKey = ...`
      throws when `params` is the primitive `v`: reading a property of
      `undefined` or `null`, or creating one on a string, number or boolean. */
  function NoParamsError(v: JsValue): JsError
  {
    if v.Undefined? || v.Null? then TypeError("Cannot set properties of " + ToStr(v) + " (setting 'apiKey')")
    else TypeError("Cannot create property 'apiKey' on " + TypeOf(v) + " '" + ToStr(v) + "'")
  }

  /** `[timestamp, UID].join('_')`. */
  function UserBase(uid: JsValue, timestamp: JsValue): string
  {
    JoinPart(timestamp) + "_" + JoinPart(uid)
  }

  /** `[timestamp, friendUID, UID].join('_')`. */
  function FriendBase(uid: JsValue, timestamp: JsValue, friendUID: JsValue): string
  {
    JoinPart(timestamp) + "_" + JoinPart(friendUID) + "_" + JoinPart(uid)
  }

  class GigyaSDK {
    var options: Obj

    /** `new GigyaSDK(config)`: the defaults merged with `config` by merge as
        written (see `MergedAsWrittenSpec` for what that keeps). */
    constructor (config: Obj)
      ensures options == MergedAsWritten(Defaults(), config)
    {
      var merged := Merge.Merge(Defaults(), config, ObjectPrototypeNames);
      options := merged;
    }

    /** `sdk.request(options, callback)` up to the hand-over to `raw`. The
        caller's `params` object is the one that is written to; a primitive
        `params` throws at the first assignment. */
    method Request(options: Obj, params: ParamsArg, nowMillis: int, draw: nat -> CharIndex, sign: Signer)
      returns (r: Result<RawCall>)
      modifies if params.Shared? then {params.obj} else {}
      ensures params.Primitive? ==> r == Err(NoParamsError(params.value))
      ensures params.Shared? ==>
        && params.obj.props == ParamsAfter(MergedAsWritten(this.options, options), old(params.obj.props), nowMillis, draw,
                                           SignatureFor(MergedAsWritten(this.options, options), old(params.obj.props), nowMillis, draw, sign))
        && r == RequestOutcome(MergedAsWritten(this.options, options), old(params.obj.props), nowMillis, draw, sign)
    {
      var opts := Merge.Merge(this.options, options, ObjectPrototypeNames);
      if params.Primitive? {
        return Err(NoParamsError(params.value));
      }
      var signed := AddAuthParams(opts, params.obj, nowMillis, draw, sign);
      if signed.Err? {
        return Err(signed.error);
      }
      var qs := Stringify(params.obj.props);
      var request := BuildDescriptor(opts, qs);
      opts := Put(opts, ParamsKey, Str(qs));
      r := Ok(RawCall(request, opts));
    }

    /** `validateUserSignature(UID, timestamp, signature)`: whether the
        signature is the very string `createSignature` gives for the base under
        the secret; the TypeError of `createSignature` when the secret is not a
        string. */
    function ValidateUserSignature(uid: JsValue, timestamp: JsValue, signature: JsValue, sign: Signer): (r: Result<bool>)
      reads this
      ensures r.Ok? <==> Get(options, SecretKey).Str?
      ensures r.Ok? && r.value ==> signature.Str?
      ensures r.Ok? ==> (r.value <==> signature == Str(sign(UserBase(uid, timestamp), Get(options, SecretKey).s)))
    {
      match CreateSignature(UserBase(uid, timestamp), Get(options, SecretKey), sign)
      case Ok(expected) => Ok(Str(expected) == signature)
      case Err(e) => Err(e)
    }

    /** `validateFriendSignature(UID, timestamp, friendUID, signature)`. */
    function ValidateFriendSignature(uid: JsValue, timestamp: JsValue, friendUID: JsValue,
                                     signature: JsValue, sign: Signer): (r: Result<bool>)
      reads this
      ensures r.Ok? <==> Get(options, SecretKey).Str?
      ensures r.Ok? && r.value ==> signature.Str?
      ensures r.Ok? ==> (r.value <==> signature == Str(sign(FriendBase(uid, timestamp, friendUID), Get(options, SecretKey).s)))
    {
      match CreateSignature(FriendBase(uid, timestamp, friendUID), Get(options, SecretKey), sign)
      case Ok(expected) => Ok(Str(expected) == signature)
      case Err(e) => Err(e)
    }
  }

  /** gigyasdk.js:220-228: assign the authentication parameters to the
      caller's object; the result is the error createRequestSignature throws,
      if any. */
  method AddAuthParams(opts: Obj, params: ParamObject, nowMillis: int, draw: nat -> CharIndex, sign: Signer)
    returns (r: Result<()>)
    modifies params
    ensures params.props == ParamsAfter(opts, old(params.props), nowMillis, draw,
                                        SignatureFor(opts, old(params.props), nowMillis, draw, sign))
    ensures r.Err? <==> !IsSsl(opts) && SignatureFor(opts, old(params.props), nowMillis, draw, sign).Err?
    ensures r.Err? ==> r.error == SignatureFor(opts, old(params.props), nowMillis, draw, sign).error
  {
    ghost var p := params.props;
    params.Set(ApiKey, Get(opts, ApiKey));
    params.Set(FormatKey, Str(JsonFormat));
    if Get(opts, SslKey) == Bool(true) {
      params.Set(SecretKey, Get(opts, SecretKey));
      return Ok(());
    }
    params.Set(TimestampKey, Num(Timestamp(nowMillis)));
    var nonce := CreateNonce(NonceLength(Get(opts, NonceSizeKey)), draw);
    params.Set(NonceKey, Str(nonce));
    assert params.props == Signed(opts, p, nowMillis, draw);
    var sig := CreateRequestSignature(opts, params.props, sign);
    if sig.Err? {
      return Err(sig.error);
    }
    params.Set(SigKey, Str(sig.value));
    r := Ok(());
  }

  /** gigyasdk.js:231-245: the descriptor, with the form headers for a POST
      and the query string appended to the path otherwise. */
  method BuildDescriptor(opts: Obj, qs: string) returns (request: RequestDescriptor)
    ensures request == Descriptor(opts, qs)
  {
    var host := JoinPart(Get(opts, ServiceKey)) + "." + JoinPart(Get(opts, DomainKey));
    var path := "/" + JoinPart(Get(opts, ServiceKey)) + "." + JoinPart(Get(opts, MethodKey));
    var headers := BaseHeaders;
    if Get(opts, ReqMethodKey) == Str(Post) {
      headers := Put(headers, ContentTypeHeader, Str(FormContentType));
      headers := Put(headers, ContentLengthHeader, Num(|qs|));
    } else {
      path := path + "?" + qs;
    }
    request := RequestDescriptor(host, path, Get(opts, ReqMethodKey), headers);
  }

  /** The six names `request` may assign in the caller's parameter object. */
  predicate IsAuthKey(k: string)
  {
    k == ApiKey || k == FormatKey || k == SecretKey || k == TimestampKey || k == NonceKey || k == SigKey
  }

  /** Helper: the six names are different from each other. */
  lemma AuthKeysDistinct()
    ensures ApiKey != FormatKey && ApiKey != SecretKey && ApiKey != TimestampKey && ApiKey != NonceKey && ApiKey != SigKey
    ensures FormatKey != SecretKey && FormatKey != TimestampKey && FormatKey != NonceKey && FormatKey != SigKey
    ensures SecretKey != TimestampKey && SecretKey != NonceKey && SecretKey != SigKey
    ensures TimestampKey != NonceKey && TimestampKey != SigKey && NonceKey != SigKey
  {
  }

  /** Helper: an assignment keeps every existing name where it was. */
  lemma PutKeepsKeys(q: Props, o: Props, k: string, v: JsValue)
    requires Keys(q) <= Keys(o)
    ensures Keys(q) <= Keys(Put(o, k, v))
  {
    assert Keys(o) <= Keys(Put(o, k, v));
  }

  /** `apiKey` and `format = "json"` are always assigned, whatever the branch
      and whether or not the signature could be computed. */
  lemma ApiKeyAndFormatAlwaysSet(opts: Obj, p: Obj, nowMillis: int, draw: nat -> CharIndex, sig: Result<string>)
    ensures var a := ParamsAfter(opts, p, nowMillis, draw, sig);
            && Has(a, ApiKey) && Get(a, ApiKey) == Get(opts, ApiKey)
            && Has(a, FormatKey) && Get(a, FormatKey) == Str(JsonFormat)
  {
    AuthKeysDistinct();
  }

  /** Every other parameter of the caller survives with its value. */
  lemma OtherParamsKept(opts: Obj, p: Obj, nowMillis: int, draw: nat -> CharIndex, sig: Result<string>)
    ensures var a := ParamsAfter(opts, p, nowMillis, draw, sig);
            forall k | !IsAuthKey(k) :: (Has(a, k) <==> Has(p, k)) && Get(a, k) == Get(p, k)
  {
    var a := ParamsAfter(opts, p, nowMillis, draw, sig);
    forall k | !IsAuthKey(k)
      ensures (Has(a, k) <==> Has(p, k)) && Get(a, k) == Get(p, k)
    {
      var pr := Prepared(opts, p);
      assert (Has(pr, k) <==> Has(p, k)) && Get(pr, k) == Get(p, k);
      if !IsSsl(opts) {
        var s := Signed(opts, p, nowMillis, draw);
        assert (Has(s, k) <==> Has(p, k)) && Get(s, k) == Get(p, k);
      }
    }
  }

  /** Every existing parameter keeps its place; new ones go after them. */
  lemma ParamsKeepTheirPlace(opts: Obj, p: Obj, nowMillis: int, draw: nat -> CharIndex, sig: Result<string>)
    ensures Keys(p) <= Keys(ParamsAfter(opts, p, nowMillis, draw, sig))
  {
    var p1 := Put(p, ApiKey, Get(opts, ApiKey));
    var p2 := Put(p1, FormatKey, Str(JsonFormat));
    PutKeepsKeys(p, p, ApiKey, Get(opts, ApiKey));
    PutKeepsKeys(p, p1, FormatKey, Str(JsonFormat));
    if IsSsl(opts) {
      PutKeepsKeys(p, p2, SecretKey, Get(opts, SecretKey));
    } else {
      var p3 := Put(p2, TimestampKey, Num(Timestamp(nowMillis)));
      var s := Put(p3, NonceKey, Str(NonceOf(NonceLength(Get(opts, NonceSizeKey)), draw)));
      PutKeepsKeys(p, p2, TimestampKey, Num(Timestamp(nowMillis)));
      PutKeepsKeys(p, p3, NonceKey, Str(NonceOf(NonceLength(Get(opts, NonceSizeKey)), draw)));
      if sig.Ok? {
        PutKeepsKeys(p, s, SigKey, Str(sig.value));
      }
    }
  }

  /** Over SSL the secret itself is sent, and `timestamp`, `nonce` and `sig`
      are left as the caller had them (absent unless the object was reused). */
  lemma SslSendsSecret(opts: Obj, p: Obj, nowMillis: int, draw: nat -> CharIndex, sig: Result<string>)
    requires IsSsl(opts)
    ensures var a := ParamsAfter(opts, p, nowMillis, draw, sig);
            && Has(a, SecretKey) && Get(a, SecretKey) == Get(opts, SecretKey)
            && (Has(a, TimestampKey) <==> Has(p, TimestampKey)) && Get(a, TimestampKey) == Get(p, TimestampKey)
            && (Has(a, NonceKey) <==> Has(p, NonceKey)) && Get(a, NonceKey) == Get(p, NonceKey)
            && (Has(a, SigKey) <==> Has(p, SigKey)) && Get(a, SigKey) == Get(p, SigKey)
  {
    AuthKeysDistinct();
  }

  /** The map that is signed holds `apiKey`, `format`, `timestamp` and the
      nonce, and everything else as the caller had it, a `sig` or `secret` left
      from an earlier call included. */
  lemma SignedParams(opts: Obj, p: Obj, nowMillis: int, draw: nat -> CharIndex)
    ensures var s := Signed(opts, p, nowMillis, draw);
            && Get(s, ApiKey) == Get(opts, ApiKey) && Get(s, FormatKey) == Str(JsonFormat)
            && Get(s, TimestampKey) == Num(Timestamp(nowMillis))
            && Get(s, NonceKey) == Str(NonceOf(NonceLength(Get(opts, NonceSizeKey)), draw))
            && (forall k | k != ApiKey && k != FormatKey && k != TimestampKey && k != NonceKey ::
                  (Has(s, k) <==> Has(p, k)) && Get(s, k) == Get(p, k))
  {
    AuthKeysDistinct();
  }

  /** Signing fails exactly when `reqMethod` or `secret` is not a string, with
      the error of `toUpperCase` taking precedence; otherwise the signature is
      that of the base string over the signed map, under `secret`. */
  lemma SignatureForSpec(opts: Obj, p: Obj, nowMillis: int, draw: nat -> CharIndex, sign: Signer)
    ensures SignatureFor(opts, p, nowMillis, draw, sign).Ok? <==> Get(opts, ReqMethodKey).Str? && Get(opts, SecretKey).Str?
    ensures !Get(opts, ReqMethodKey).Str? ==> SignatureFor(opts, p, nowMillis, draw, sign) == Err(MethodTypeError(Get(opts, ReqMethodKey)))
    ensures Get(opts, ReqMethodKey).Str? && !Get(opts, SecretKey).Str? ==>
              SignatureFor(opts, p, nowMillis, draw, sign) == Err(SecretTypeError(Get(opts, SecretKey)))
    ensures Get(opts, ReqMethodKey).Str? && Get(opts, SecretKey).Str? ==>
              SignatureFor(opts, p, nowMillis, draw, sign).value
                == sign(BaseString(Get(opts, ReqMethodKey).s, opts, Signed(opts, p, nowMillis, draw)), Get(opts, SecretKey).s)
  {
  }

  /** Without SSL, a timestamp of the current second and an alphanumeric
      nonce of `nonceSize` characters are sent. */
  lemma UnsignedSendsTimestampAndNonce(opts: Obj, p: Obj, nowMillis: int, draw: nat -> CharIndex, sig: Result<string>)
    requires !IsSsl(opts)
    ensures var a := ParamsAfter(opts, p, nowMillis, draw, sig);
            && Get(a, TimestampKey) == Num(Timestamp(nowMillis))
            && Get(a, NonceKey).Str? && |Get(a, NonceKey).s| == NonceLength(Get(opts, NonceSizeKey))
            && (forall c | c in Get(a, NonceKey).s :: IsAlpha(c) || IsDigit(c))
  {
    AuthKeysDistinct();
    SignedParams(opts, p, nowMillis, draw);
    NonceIsAlphanumeric(NonceLength(Get(opts, NonceSizeKey)), draw);
  }

  /** Without SSL the signature is sent and the caller's `secret`, if any, is
      left alone; when signing failed no `sig` is assigned. */
  lemma UnsignedSendsSignature(opts: Obj, p: Obj, nowMillis: int, draw: nat -> CharIndex, sig: Result<string>)
    requires !IsSsl(opts)
    ensures var a := ParamsAfter(opts, p, nowMillis, draw, sig);
            && (Has(a, SecretKey) <==> Has(p, SecretKey)) && Get(a, SecretKey) == Get(p, SecretKey)
            && (sig.Ok? ==> Get(a, SigKey) == Str(sig.value))
            && (sig.Err? ==> (Has(a, SigKey) <==> Has(p, SigKey)) && Get(a, SigKey) == Get(p, SigKey))
  {
    AuthKeysDistinct();
    SignedParams(opts, p, nowMillis, draw);
  }

  /** For a fresh parameter object, what is sent is exactly the signed map
      followed by its signature: dropping the last parameter gives back the
      map the signature covers. */
  lemma FreshParamsCarryTheirSignature(opts: Obj, p: Obj, nowMillis: int, draw: nat -> CharIndex, sig: Result<string>)
    requires !IsSsl(opts) && sig.Ok? && !Has(p, SigKey)
    ensures ParamsAfter(opts, p, nowMillis, draw, sig)
              == Signed(opts, p, nowMillis, draw) + [(SigKey, Str(sig.value))]
  {
    AuthKeysDistinct();
    SignedParams(opts, p, nowMillis, draw);
    PutAbsent(Signed(opts, p, nowMillis, draw), SigKey, Str(sig.value));
  }

  /** For an object `params` and up to the hand-over to `raw`, `request`
      throws exactly when it must sign and `reqMethod` or `secret` is not a
      string; otherwise it reaches `raw`. */
  lemma RequestThrowsOnlyWithoutStrings(opts: Obj, p: Obj, nowMillis: int, draw: nat -> CharIndex, sign: Signer)
    ensures RequestOutcome(opts, p, nowMillis, draw, sign).Err?
            <==> !IsSsl(opts) && !(Get(opts, ReqMethodKey).Str? && Get(opts, SecretKey).Str?)
  {
    SignatureForSpec(opts, p, nowMillis, draw, sign);
  }

  /** A client configured without `secret` and without `ssl`, called with
      options that add neither, cannot sign: the request throws. */
  lemma ClientWithoutSecretThrows(config: Obj, callOpts: Obj, p: Obj, nowMillis: int, draw: nat -> CharIndex, sign: Signer)
    requires !Has(config, SecretKey) && !Has(config, SslKey)
    requires !Has(callOpts, SecretKey) && !Has(callOpts, SslKey)
    ensures var opts := MergedAsWritten(MergedAsWritten(Defaults(), config), callOpts);
            !IsSsl(opts) && RequestOutcome(opts, p, nowMillis, draw, sign).Err?
  {
    DefaultsAuth();
    OptionKeysDistinct();
    var clientOpts := MergedAsWritten(Defaults(), config);
    MergedAsWrittenSpec(Defaults(), config);
    MergedAsWrittenSpec(clientOpts, callOpts);
    RequestThrowsOnlyWithoutStrings(MergedAsWritten(clientOpts, callOpts), p, nowMillis, draw, sign);
  }

  /** The descriptor for query string `qs`: host `service.domain`, the HTTP
      method `reqMethod` and the User-Agent header; for a POST the bare path,
      the form content type and a Content-Length equal to the length of `qs`;
      otherwise `qs` after `?` and no content headers. */
  lemma DescriptorShape(opts: Obj, qs: string)
    ensures var d := Descriptor(opts, qs);
            && d.host == HostOf(opts)
            && d.httpMethod == Get(opts, ReqMethodKey)
            && Get(d.headers, UserAgentHeader) == Str(UserAgent)
            && (Get(opts, ReqMethodKey) == Str(Post) ==>
                  && d.path == PathOf(opts)
                  && Get(d.headers, ContentTypeHeader) == Str(FormContentType)
                  && Get(d.headers, ContentLengthHeader) == Num(|qs|))
            && (Get(opts, ReqMethodKey) != Str(Post) ==>
                  && d.path == PathOf(opts) + "?" + qs
                  && !Has(d.headers, ContentTypeHeader) && !Has(d.headers, ContentLengthHeader))
  {
  }

  /** What reaches `raw`: the descriptor above for the serialised parameters,
      which are ASCII so a POST's Content-Length is their size in octets, and
      the options with `params` holding that query string. */
  lemma RequestDescriptorShape(opts: Obj, p: Obj, nowMillis: int, draw: nat -> CharIndex, sign: Signer)
    requires RequestOutcome(opts, p, nowMillis, draw, sign).Ok?
    ensures var call := RequestOutcome(opts, p, nowMillis, draw, sign).value;
            var qs := Stringify(ParamsAfter(opts, p, nowMillis, draw, SignatureFor(opts, p, nowMillis, draw, sign)));
            && call.request == Descriptor(opts, qs)
            && IsAscii(qs)
            && Get(call.options, ParamsKey) == Str(qs)
            && (forall k | k != ParamsKey :: Get(call.options, k) == Get(opts, k))
  {
    StringifyIsAscii(ParamsAfter(opts, p, nowMillis, draw, SignatureFor(opts, p, nowMillis, draw, sign)));
  }

  /** Helper: the value of the digits `NatToString` writes. */
  lemma {:induction false} DecimalValueOfNatToString(n: nat)
    ensures forall i | 0 <= i < |NatToString(n)| :: IsDigit(NatToString(n)[i])
    ensures DecimalValue(NatToString(n)) == n
  {
    var s := NatToString(n);
    assert forall i | 0 <= i < |s| :: s[i] in s;
    if n >= 10 {
      DecimalValueOfNatToString(n / 10);
      assert s[..|s| - 1] == NatToString(n / 10);
    }
  }

  /** A `nonceSize` written as a decimal string gives as many characters as
      the number itself. */
  lemma NonceSizeAsDecimalString(n: nat)
    ensures NonceLength(Str(NatToString(n))) == NonceLength(Num(n)) == n
  {
    DecimalValueOfNatToString(n);
  }

  /** Helper: two strings joined by `_` split back uniquely when the first
      part holds no `_`. */
  lemma UnderscoreSplit(a: string, b: string, c: string, d: string)
    requires '_' !in a && '_' !in c
    requires a + "_" + b == c + "_" + d
    ensures a == c && b == d
  {
    var x := a + "_" + b;
    FirstUnderscore(a, b);
    FirstUnderscore(c, d);
    assert |a| == |c|;
    assert a == x[..|a|] == c;
    assert b == x[|a| + 1..] == d;
  }

  /** Helper: in `a + "_" + b`, the first `_` is the separator when `a` has none. */
  lemma FirstUnderscore(a: string, b: string)
    requires '_' !in a
    ensures (a + "_" + b)[|a|] == '_'
    ensures forall i | 0 <= i < |a| :: (a + "_" + b)[i] != '_'
  {
    assert forall i | 0 <= i < |a| :: (a + "_" + b)[i] == a[i];
  }

  /** A number written with `String` holds no `_`. */
  lemma NumberHasNoUnderscore(n: int)
    ensures '_' !in JoinPart(Num(n))
  {
  }

  /** While timestamps hold no `_` (numbers never do), the user signature base
      determines the timestamp and the UID it was made from. */
  lemma UserBaseInjective(uid1: JsValue, ts1: JsValue, uid2: JsValue, ts2: JsValue)
    requires '_' !in JoinPart(ts1) && '_' !in JoinPart(ts2)
    ensures UserBase(uid1, ts1) == UserBase(uid2, ts2)
            <==> JoinPart(ts1) == JoinPart(ts2) && JoinPart(uid1) == JoinPart(uid2)
  {
    if UserBase(uid1, ts1) == UserBase(uid2, ts2) {
      UnderscoreSplit(JoinPart(ts1), JoinPart(uid1), JoinPart(ts2), JoinPart(uid2));
    }
  }

  /** The signature Gigya computes for a user with the client's secret is
      accepted for that user. */
  lemma UserSignatureRoundTrip(sdk: GigyaSDK, uid: JsValue, ts: JsValue, sign: Signer)
    requires Get(sdk.options, SecretKey).Str?
    ensures sdk.ValidateUserSignature(uid, ts, Str(sign(UserBase(uid, ts), Get(sdk.options, SecretKey).s)), sign) == Ok(true)
  {
  }

  /** When `sign` under the client's secret tells bases apart and timestamps
      hold no `_`, a user signature is accepted for exactly the timestamp and
      UID it was made for. */
  lemma UserSignatureBindsUser(sdk: GigyaSDK, uid1: JsValue, ts1: JsValue, uid2: JsValue, ts2: JsValue, sign: Signer)
    requires Get(sdk.options, SecretKey).Str?
    requires forall a, b :: sign(a, Get(sdk.options, SecretKey).s) == sign(b, Get(sdk.options, SecretKey).s) ==> a == b
    requires '_' !in JoinPart(ts1) && '_' !in JoinPart(ts2)
    ensures sdk.ValidateUserSignature(uid2, ts2, Str(sign(UserBase(uid1, ts1), Get(sdk.options, SecretKey).s)), sign) == Ok(true)
            <==> JoinPart(ts1) == JoinPart(ts2) && JoinPart(uid1) == JoinPart(uid2)
  {
    UserBaseInjective(uid1, ts1, uid2, ts2);
  }

  /** Helper: the friend base as the timestamp and the rest. */
  lemma FriendBaseParts(uid: JsValue, ts: JsValue, f: JsValue)
    ensures FriendBase(uid, ts, f) == JoinPart(ts) + "_" + (JoinPart(f) + "_" + JoinPart(uid))
  {
  }

  /** While timestamps and friend UIDs hold no `_`, the friend signature base
      determines all three parts. */
  lemma FriendBaseInjective(uid1: JsValue, ts1: JsValue, f1: JsValue, uid2: JsValue, ts2: JsValue, f2: JsValue)
    requires '_' !in JoinPart(ts1) && '_' !in JoinPart(ts2)
    requires '_' !in JoinPart(f1) && '_' !in JoinPart(f2)
    ensures FriendBase(uid1, ts1, f1) == FriendBase(uid2, ts2, f2)
            <==> JoinPart(ts1) == JoinPart(ts2) && JoinPart(f1) == JoinPart(f2) && JoinPart(uid1) == JoinPart(uid2)
  {
    FriendBaseParts(uid1, ts1, f1);
    FriendBaseParts(uid2, ts2, f2);
    if FriendBase(uid1, ts1, f1) == FriendBase(uid2, ts2, f2) {
      UnderscoreSplit(JoinPart(ts1), JoinPart(f1) + "_" + JoinPart(uid1), JoinPart(ts2), JoinPart(f2) + "_" + JoinPart(uid2));
      UnderscoreSplit(JoinPart(f1), JoinPart(uid1), JoinPart(f2), JoinPart(uid2));
    }
  }

  /** The signature Gigya computes for a friend relation with the client's
      secret is accepted for that relation. */
  lemma FriendSignatureRoundTrip(sdk: GigyaSDK, uid: JsValue, ts: JsValue, friendUID: JsValue, sign: Signer)
    requires Get(sdk.options, SecretKey).Str?
    ensures sdk.ValidateFriendSignature(uid, ts, friendUID,
              Str(sign(FriendBase(uid, ts, friendUID), Get(sdk.options, SecretKey).s)), sign) == Ok(true)
  {
  }

  /** When `sign` under the client's secret tells bases apart and timestamps
      and friend UIDs hold no `_`, a friend signature is accepted for exactly
      the timestamp, friend UID and UID it was made for. */
  lemma FriendSignatureBindsRelation(sdk: GigyaSDK, uid1: JsValue, ts1: JsValue, f1: JsValue,
                                     uid2: JsValue, ts2: JsValue, f2: JsValue, sign: Signer)
    requires Get(sdk.options, SecretKey).Str?
    requires forall a, b :: sign(a, Get(sdk.options, SecretKey).s) == sign(b, Get(sdk.options, SecretKey).s) ==> a == b
    requires '_' !in JoinPart(ts1) && '_' !in JoinPart(ts2)
    requires '_' !in JoinPart(f1) && '_' !in JoinPart(f2)
    ensures sdk.ValidateFriendSignature(uid2, ts2, f2, Str(sign(FriendBase(uid1, ts1, f1), Get(sdk.options, SecretKey).s)), sign) == Ok(true)
            <==> JoinPart(ts1) == JoinPart(ts2) && JoinPart(f1) == JoinPart(f2) && JoinPart(uid1) == JoinPart(uid2)
  {
    FriendBaseInjective(uid1, ts1, f1, uid2, ts2, f2);
  }

  /** A friend signature is the user signature of the UID `friendUID_UID`. */
  lemma FriendSignatureIsUserSignature(sdk: GigyaSDK, uid: JsValue, ts: JsValue, friendUID: JsValue,
                                       signature: JsValue, sign: Signer)
    ensures sdk.ValidateFriendSignature(uid, ts, friendUID, signature, sign)
            == sdk.ValidateUserSignature(Str(JoinPart(friendUID) + "_" + JoinPart(uid)), ts, signature, sign)
  {
    assert FriendBase(uid, ts, friendUID) == UserBase(Str(JoinPart(friendUID) + "_" + JoinPart(uid)), ts);
  }

  /** Without the restriction on `_` the base is ambiguous: timestamp "1_2"
      with UID "3" and timestamp "1" with UID "2_3" accept the same signatures. */
  lemma UserBaseAmbiguousWithUnderscore(sdk: GigyaSDK, signature: JsValue, sign: Signer)
    ensures sdk.ValidateUserSignature(Str("3"), Str("1_2"), signature, sign)
            == sdk.ValidateUserSignature(Str("2_3"), Str("1"), signature, sign)
  {
    assert UserBase(Str("3"), Str("1_2")) == UserBase(Str("2_3"), Str("1"));
  }
}

=== FILE: encoding.dfy ===
/** The canonical encoder `encode` (gigyasdk.js:81-93): `encodeURIComponent`
    followed by escaping the five characters it leaves alone but OAuth does not,
    `! ' ( ) *`. The reference it is proved against is the percent-encoding of
    section 3.6 of RFC 5849: every character outside the unreserved set of
    section 2.3 of RFC 3986 becomes "%" and two upper-case hex digits per UTF-8 octet. */
module Encoding {
  import opened JsValues
  import opened Uri

  /** The characters `encode` escapes on top of `encodeURIComponent`. */
  const SubDelims: string := "!'()*"

  /** `s.replace(/c/g, rep)`. */
  function ReplaceAll(s: string, c: char, rep: string): string
  {
    if s == [] then ""
    else (if s[0] == c then rep else [s[0]]) + ReplaceAll(s[1..], c, rep)
  }

  /** The chain of five `replace` calls of gigyasdk.js:86-91, in their order. */
  function EscapeSubDelims(s: string): string
  {
    ReplaceAll(ReplaceAll(ReplaceAll(ReplaceAll(ReplaceAll(
      s, '!', "%21"), '\'', "%27"), '(', "%28"), ')', "%29"), '*', "%2A")
  }

  /** `encode(value)`: null and the empty string give ""; anything else is
      converted with `String`, then escaped by `EncodeString`. */
  function Encode(v: JsValue): (r: string)
    ensures v == Null || v == Str("") ==> r == ""
  {
    if v == Null || v == Str("") then "" else EncodeString(ToStr(v))
  }

  /** gigyasdk.js:85-91: `encodeURIComponent`, then `! ' ( ) *` escaped. */
  function EncodeString(s: string): string
  {
    EscapeSubDelims(EncodeURIComponent(s))
  }

  /** Unreserved characters of section 2.3 of RFC 3986. */
  predicate Unreserved(c: char)
  {
    IsAlpha(c) || IsDigit(c) || c in "-._~"
  }

  /** Percent-encoding of section 3.6 of RFC 5849. */
  function PercentEncode(s: string): string
  {
    if s == [] then ""
    else (if Unreserved(s[0]) then [s[0]] else PercentOctets(Utf8(s[0]))) + PercentEncode(s[1..])
  }

  lemma {:induction false} ReplaceAllAppend(a: string, b: string, c: char, rep: string)
    ensures ReplaceAll(a + b, c, rep) == ReplaceAll(a, c, rep) + ReplaceAll(b, c, rep)
  {
    if a != [] {
      var h := if a[0] == c then rep else [a[0]];
      assert (a + b)[0] == a[0] && (a + b)[1..] == a[1..] + b;
      calc {
        ReplaceAll(a + b, c, rep);
        h + ReplaceAll(a[1..] + b, c, rep);
        { ReplaceAllAppend(a[1..], b, c, rep); }
        h + (ReplaceAll(a[1..], c, rep) + ReplaceAll(b, c, rep));
        (h + ReplaceAll(a[1..], c, rep)) + ReplaceAll(b, c, rep);
      }
    } else {
      assert a + b == b;
    }
  }

  lemma {:induction false} ReplaceAllAbsent(s: string, c: char, rep: string)
    requires c !in s
    ensures ReplaceAll(s, c, rep) == s
  {
    if s != [] {
      ReplaceAllAbsent(s[1..], c, rep);
    }
  }

  lemma EscapeSubDelimsAppend(a: string, b: string)
    ensures EscapeSubDelims(a + b) == EscapeSubDelims(a) + EscapeSubDelims(b)
  {
    var a1, b1 := ReplaceAll(a, '!', "%21"), ReplaceAll(b, '!', "%21");
    var a2, b2 := ReplaceAll(a1, '\'', "%27"), ReplaceAll(b1, '\'', "%27");
    var a3, b3 := ReplaceAll(a2, '(', "%28"), ReplaceAll(b2, '(', "%28");
    var a4, b4 := ReplaceAll(a3, ')', "%29"), ReplaceAll(b3, ')', "%29");
    ReplaceAllAppend(a, b, '!', "%21");
    ReplaceAllAppend(a1, b1, '\'', "%27");
    ReplaceAllAppend(a2, b2, '(', "%28");
    ReplaceAllAppend(a3, b3, ')', "%29");
    ReplaceAllAppend(a4, b4, '*', "%2A");
  }

  lemma EscapeSubDelimsAbsent(s: string)
    requires forall c | c in s :: c !in SubDelims
    ensures EscapeSubDelims(s) == s
  {
    ReplaceAllAbsent(s, '!', "%21");
    ReplaceAllAbsent(s, '\'', "%27");
    ReplaceAllAbsent(s, '(', "%28");
    ReplaceAllAbsent(s, ')', "%29");
    ReplaceAllAbsent(s, '*', "%2A");
  }

  /** The replacement text of each of the five characters is its percent-encoding. */
  lemma SubDelimEscape(c: char)
    requires c in SubDelims
    ensures EscapeSubDelims([c]) == PercentOctet(c as int)
  {
    if c == '!' { EscapeBang(c); }
    else if c == '\'' { EscapeQuote(c); }
    else if c == '(' { EscapeOpen(c); }
    else if c == ')' { EscapeClose(c); }
    else { EscapeStar(c); }
  }

  lemma EscapeBang(c: char)
    requires c == '!'
    ensures EscapeSubDelims([c]) == PercentOctet(c as int)
  {
    var e: string := "%21";
    assert PercentOctet(c as int) == e;
    ReplaceOne(c, "%21");
    ReplaceAllAbsent(e, '\'', "%27");
    ReplaceThree(e, '(', "%28");
    ReplaceThree(e, ')', "%29");
    ReplaceThree(e, '*', "%2A");
  }

  lemma EscapeQuote(c: char)
    requires c == '\''
    ensures EscapeSubDelims([c]) == PercentOctet(c as int)
  {
    var e: string := "%27";
    assert PercentOctet(c as int) == e;
    ReplaceOther(c, '!', "%21");
    ReplaceOne(c, "%27");
    ReplaceThree(e, '(', "%28");
    ReplaceThree(e, ')', "%29");
    ReplaceThree(e, '*', "%2A");
  }

  lemma EscapeOpen(c: char)
    requires c == '('
    ensures EscapeSubDelims([c]) == PercentOctet(c as int)
  {
    var e: string := "%28";
    assert PercentOctet(c as int) == e;
    ReplaceOther(c, '!', "%21");
    ReplaceOther(c, '\'', "%27");
    ReplaceOne(c, "%28");
    ReplaceThree(e, ')', "%29");
    ReplaceThree(e, '*', "%2A");
  }

  lemma EscapeClose(c: char)
    requires c == ')'
    ensures EscapeSubDelims([c]) == PercentOctet(c as int)
  {
    var e: string := "%29";
    assert PercentOctet(c as int) == e;
    ReplaceOther(c, '!', "%21");
    ReplaceOther(c, '\'', "%27");
    ReplaceOther(c, '(', "%28");
    ReplaceOne(c, "%29");
    ReplaceThree(e, '*', "%2A");
  }

  lemma EscapeStar(c: char)
    requires c == '*'
    ensures EscapeSubDelims([c]) == PercentOctet(c as int)
  {
    var e: string := "%2A";
    assert PercentOctet(c as int) == e;
    ReplaceOther(c, '!', "%21");
    ReplaceOther(c, '\'', "%27");
    ReplaceOther(c, '(', "%28");
    ReplaceOther(c, ')', "%29");
    ReplaceOne(c, "%2A");
  }

  lemma ReplaceThree(s: string, c: char, rep: string)
    requires |s| == 3 && s[0] != c && s[1] != c && s[2] != c
    ensures ReplaceAll(s, c, rep) == s
  {
    assert ReplaceAll(s[2..], c, rep) == s[2..] + ReplaceAll([], c, rep);
    assert ReplaceAll(s[1..], c, rep) == [s[1]] + ReplaceAll(s[2..], c, rep);
  }

  lemma ReplaceOne(c: char, rep: string)
    ensures ReplaceAll([c], c, rep) == rep
  {
    assert ReplaceAll([c], c, rep) == rep + ReplaceAll([], c, rep);
  }

  lemma ReplaceOther(d: char, c: char, rep: string)
    requires d != c
    ensures ReplaceAll([d], c, rep) == [d]
  {
    assert ReplaceAll([d], c, rep) == [d] + ReplaceAll([], c, rep);
  }

  lemma HexDigitsAreNotSubDelims()
    ensures forall c | c in HexDigits :: c !in SubDelims
  {
  }

  /** One character: the two encoders agree. */
  lemma EncodeCharAgrees(c: char)
    ensures EscapeSubDelims(EncodeURIChar(c))
         == if Unreserved(c) then [c] else PercentOctets(Utf8(c))
  {
    if c in SubDelims {
      assert EncodeURIChar(c) == [c];
      assert Utf8(c) == [c as int];
      assert PercentOctets([c as int]) == PercentOctet(c as int) + "";
      SubDelimEscape(c);
    } else {
      HexDigitsAreNotSubDelims();
      assert forall x | x in EncodeURIChar(c) :: x == c || x == '%' || x in HexDigits;
      EscapeSubDelimsAbsent(EncodeURIChar(c));
    }
  }

  /** `encode` computes exactly the RFC 5849 percent-encoding of `String(value)`,
      for every value but null (which gives ""). */
  lemma {:induction false} EncodeIsPercentEncode(s: string)
    ensures EncodeString(s) == PercentEncode(s)
  {
    if s != [] {
      EscapeSubDelimsAppend(EncodeURIChar(s[0]), EncodeURIComponent(s[1..]));
      EncodeCharAgrees(s[0]);
      EncodeIsPercentEncode(s[1..]);
    }
  }

  /** The characters the RFC 5849 encoding may output. */
  predicate EncodedChar(c: char)
  {
    Unreserved(c) || c == '%' || c in HexDigits
  }

  lemma EncodedCharFacts(c: char)
    requires EncodedChar(c)
    ensures c !in SubDelims && c < 128 as char
  {
    HexDigitsAreAscii();
  }

  /** The output of the RFC 5849 encoding uses only unreserved characters, "%"
      and upper-case hex digits. */
  lemma {:induction false} PercentEncodeAlphabet(s: string)
    ensures forall c | c in PercentEncode(s) :: EncodedChar(c)
  {
    if s != [] {
      PercentEncodeAlphabet(s[1..]);
      var h := if Unreserved(s[0]) then [s[0]] else PercentOctets(Utf8(s[0]));
      assert PercentEncode(s) == h + PercentEncode(s[1..]);
    }
  }

  /** What `encode` promises: null and "" give "", every other value gives the
      RFC 5849 encoding of its string form, which contains none of `! ' ( ) *`
      and is pure ASCII. */
  lemma EncodeSpec(v: JsValue)
    ensures v == Null || v == Str("") ==> Encode(v) == ""
    ensures v != Null ==> Encode(v) == PercentEncode(ToStr(v))
    ensures forall c | c in Encode(v) :: c !in SubDelims
    ensures IsAscii(Encode(v))
  {
    if v != Null {
      EncodeIsPercentEncode(ToStr(v));
      PercentEncodeAlphabet(ToStr(v));
    }
    forall c | c in Encode(v) ensures c !in SubDelims && c < 128 as char {
      EncodedCharFacts(c);
    }
  }
}

=== FILE: jsvalues.dfy ===
/** JavaScript values and plain objects as the client library uses them.

    A plain object is an ordered list of own properties: the order is the one
    `Object.getOwnPropertyNames` reports and `querystring.stringify` follows,
    that is, insertion order. Assigning to an existing property keeps its
    position; assigning to a new one appends it. */
module JsValues {

  /** A primitive JavaScript value. Numbers are integers in this model. */
  datatype JsValue = Undefined | Null | Bool(b: bool) | Num(n: int) | Str(s: string)

  /** The exceptions the modelled code can throw. */
  datatype JsError = TypeError(message: string)

  datatype Result<T> = Ok(value: T) | Err(error: JsError)

  /** Decimal digits of a natural number, most significant first. */
  function NatToString(n: nat): (s: string)
    ensures |s| > 0
    ensures forall c | c in s :: '0' <= c <= '9'
    decreases n
  {
    var d := ['0' + (n % 10) as char];
    if n < 10 then d else NatToString(n / 10) + d
  }

  /** `String(n)` for an integer written in plain decimal, as JavaScript writes
      integers of magnitude below 10^21 (larger ones it writes in exponent form). */
  function IntToString(n: int): string
  {
    if n < 0 then "-" + NatToString(-n) else NatToString(n)
  }

  /** ECMAScript ToString of a primitive, as `String(v)` and `'' + v` compute it. */
  function ToStr(v: JsValue): string
  {
    match v
    case Undefined => "undefined"
    case Null => "null"
    case Bool(b) => if b then "true" else "false"
    case Num(n) => IntToString(n)
    case Str(s) => s
  }

  /** How `Array.prototype.join` renders one element: null and undefined become "". */
  function JoinPart(v: JsValue): string
  {
    if v.Null? || v.Undefined? then "" else ToStr(v)
  }

  /** `xs.join(sep)`. */
  function Join(sep: string, xs: seq<string>): string
  {
    if |xs| == 0 then "" else if |xs| == 1 then xs[0] else xs[0] + sep + Join(sep, xs[1..])
  }

  type Props = seq<(string, JsValue)>

  function Keys(o: Props): (ks: seq<string>)
    ensures |ks| == |o| && forall i | 0 <= i < |o| :: ks[i] == o[i].0
  {
    if o == [] then [] else [o[0].0] + Keys(o[1..])
  }

  /** `Object.prototype.hasOwnProperty.call(o, k)`. */
  predicate Has(o: Props, k: string)
  {
    o != [] && (o[0].0 == k || Has(o[1..], k))
  }

  predicate DistinctKeys(o: Props)
  {
    o == [] || (!Has(o[1..], o[0].0) && DistinctKeys(o[1..]))
  }

  /** The own properties of a plain object: no key occurs twice. */
  type Obj = o: Props | DistinctKeys(o) witness []

  /** `o[k]` for an own property; `undefined` when there is none. */
  function Get(o: Props, k: string): (v: JsValue)
    ensures !Has(o, k) ==> v == Undefined
  {
    if o == [] then Undefined else if o[0].0 == k then o[0].1 else Get(o[1..], k)
  }

  /** `o[k] = v` (and `Object.defineProperty(o, k, ...)`): an existing property
      keeps its place, a new one goes last. */
  function Put(o: Props, k: string, v: JsValue): (r: Props)
    ensures Has(r, k) && Get(r, k) == v
    ensures forall k' | k' != k :: Get(r, k') == Get(o, k') && (Has(r, k') <==> Has(o, k'))
    ensures Keys(r) == if Has(o, k) then Keys(o) else Keys(o) + [k]
    ensures DistinctKeys(o) ==> DistinctKeys(r)
  {
    if o == [] then [(k, v)]
    else if o[0].0 == k then [(k, v)] + o[1..]
    else [o[0]] + Put(o[1..], k, v)
  }

  /** Helper: a new property goes last. */
  lemma {:induction false} PutAbsent(o: Props, k: string, v: JsValue)
    requires !Has(o, k)
    ensures Put(o, k, v) == o + [(k, v)]
  {
    if o != [] {
      PutAbsent(o[1..], k, v);
    }
  }

  /** Helper: `Keys` of an appended property list. */
  lemma KeysAppend(o: Props, e: (string, JsValue))
    ensures Keys(o + [e]) == Keys(o) + [e.0]
  {
    if o != [] {
      assert (o + [e])[1..] == o[1..] + [e];
      KeysAppend(o[1..], e);
    }
  }

  /** Helper: an own property, stated by position. */
  lemma {:induction false} HasAt(o: Props, k: string)
    ensures Has(o, k) <==> exists i | 0 <= i < |o| :: o[i].0 == k
  {
    if o != [] {
      HasAt(o[1..], k);
      if Has(o[1..], k) {
        var i :| 0 <= i < |o[1..]| && o[1..][i].0 == k;
        assert o[i + 1].0 == k;
      }
      if exists i | 0 <= i < |o| :: o[i].0 == k {
        var i :| 0 <= i < |o| && o[i].0 == k;
        if i > 0 {
          assert o[1..][i - 1].0 == k;
        }
      }
    }
  }

  /** Helper: distinct keys, stated by position. */
  lemma {:induction false} DistinctKeysAt(o: Props)
    ensures DistinctKeys(o) <==> forall i, j | 0 <= i < j < |o| :: o[i].0 != o[j].0
  {
    if o != [] {
      DistinctKeysAt(o[1..]);
      HasAt(o[1..], o[0].0);
      assert forall j | 1 <= j < |o| :: o[1..][j - 1] == o[j];
    }
  }

  /** Helper: `Has` agrees with membership in `Keys`. */
  lemma {:induction false} HasKeys(o: Props, k: string)
    ensures Has(o, k) <==> k in Keys(o)
  {
    if o != [] {
      HasKeys(o[1..], k);
      assert Keys(o) == [o[0].0] + Keys(o[1..]);
    }
  }

  /** Helper: in an object, no property's name occurs before it. */
  lemma DistinctKeysBefore(o: Props, i: nat)
    requires DistinctKeys(o) && i < |o|
    ensures !Has(o[..i], o[i].0)
  {
    DistinctKeysAt(o);
    HasAt(o[..i], o[i].0);
  }

  /** Helper: a prefix of an object's property list is an object's property list. */
  lemma DistinctKeysPrefix(o: Props, n: nat)
    requires DistinctKeys(o) && n <= |o|
    ensures DistinctKeys(o[..n])
  {
    DistinctKeysAt(o);
    DistinctKeysAt(o[..n]);
  }

  /** Helper: looking a key up in a property list extended at the end. */
  lemma {:induction false} GetAppend(o: Props, e: (string, JsValue), k: string)
    ensures Has(o + [e], k) <==> Has(o, k) || e.0 == k
    ensures Get(o + [e], k) == if Has(o, k) then Get(o, k) else if e.0 == k then e.1 else Undefined
  {
    KeysAppend(o, e);
    if o != [] {
      assert (o + [e])[1..] == o[1..] + [e];
      GetAppend(o[1..], e, k);
    }
  }

  /** Helper: in an object, a property entry is there exactly when its key is
      an own property holding its value. */
  lemma {:induction false} EntryIn(o: Props, e: (string, JsValue))
    requires DistinctKeys(o)
    ensures e in o <==> Has(o, e.0) && Get(o, e.0) == e.1
  {
    if o != [] {
      EntryIn(o[1..], e);
      if e in o[1..] && o[0].0 == e.0 {
        assert false;
      }
    }
  }

  /** Helper: an object holds each of its entries once. */
  lemma {:induction false} EntryCount(o: Props, e: (string, JsValue))
    requires DistinctKeys(o)
    ensures multiset(o)[e] == if e in o then 1 else 0
  {
    if o != [] {
      EntryCount(o[1..], e);
      assert o == [o[0]] + o[1..];
      EntryIn(o[1..], e);
    }
  }

  /** Two objects with the same own properties and values differ at most in
      the order their properties were inserted. */
  lemma SameEntriesPermutation(p: Props, q: Props)
    requires DistinctKeys(p) && DistinctKeys(q)
    requires forall k :: Has(p, k) <==> Has(q, k)
    requires forall k :: Get(p, k) == Get(q, k)
    ensures multiset(p) == multiset(q)
  {
    forall e ensures multiset(p)[e] == multiset(q)[e] {
      EntryCount(p, e);
      EntryCount(q, e);
      EntryIn(p, e);
      EntryIn(q, e);
    }
  }
}

=== FILE: merge.dfy ===
/** `merge(dest, from)` (gigyasdk.js:11-30): a shallow merge into a fresh
    object. Every own property of `dest` is copied; then every own property of
    `from` whose name passes `name in dest` is redefined from `from`. */
module Merge {
  import opened JsValues

  /** The own property names of `Object.prototype`. The `in` operator finds
      them on every plain object, although none of them is an own property. */
  const ObjectPrototypeNames: set<string> := {
    "constructor", "__defineGetter__", "__defineSetter__", "hasOwnProperty",
    "__lookupGetter__", "__lookupSetter__", "isPrototypeOf",
    "propertyIsEnumerable", "toString", "valueOf", "__proto__", "toLocaleString"
  }

  /** The result of merge's two loops once the second has visited `from`'s
      properties in order; `inherited` holds the names the `in` test accepts
      beyond `dest`'s own ones. */
  function MergeWith(dest: Props, from: Props, inherited: set<string>): (r: Props)
    ensures DistinctKeys(dest) ==> DistinctKeys(r)
    decreases |from|
  {
    if from == [] then dest
    else
      var t := MergeWith(dest, from[..|from| - 1], inherited);
      var (k, v) := from[|from| - 1];
      if Has(dest, k) || k in inherited then Put(t, k, v) else t
  }

  /** merge as gigyasdk.js:23 writes it: `name in dest` also accepts the
      inherited names of `Object.prototype`. */
  function MergedAsWritten(dest: Obj, from: Obj): Obj
  {
    MergeWith(dest, from, ObjectPrototypeNames)
  }

  /** merge as intended: only `dest`'s own names are taken from `from`. */
  function Merged(dest: Obj, from: Obj): Obj
  {
    MergeWith(dest, from, {})
  }

  /** The two `forEach` loops of merge, building `target` one property at a
      time. `name in dest` holds for `dest`'s own names and for the names
      `inherited` from its prototype chain: `ObjectPrototypeNames` for the code
      as written, none for the intended merge. */
  method Merge(dest: Obj, from: Obj, inherited: set<string>) returns (target: Obj)
    ensures target == MergeWith(dest, from, inherited)
  {
    target := [];
    for i := 0 to |dest|
      invariant target == dest[..i]
    {
      DistinctKeysBefore(dest, i);
      assert dest[..i + 1] == dest[..i] + [dest[i]];
      PutAbsent(target, dest[i].0, dest[i].1);
      target := Put(target, dest[i].0, dest[i].1);
    }
    assert dest[..|dest|] == dest;
    for j := 0 to |from|
      invariant DistinctKeys(from[..j])
      invariant target == MergeWith(dest, from[..j], inherited)
    {
      assert from[..j + 1][..j] == from[..j];
      DistinctKeysPrefix(from, j + 1);
      var (name, value) := from[j];
      if Has(dest, name) || name in inherited {
        target := Put(target, name, value);
      }
    }
    assert from[..|from|] == from;
  }

  /** What merge promises: the result has exactly `dest`'s keys, in `dest`'s
      order; each takes its value from `from` when `from` has it and from
      `dest` otherwise; keys found only in `from` are dropped. */
  lemma {:induction false} MergedSpec(dest: Obj, from: Obj)
    ensures Keys(Merged(dest, from)) == Keys(dest)
    ensures forall k | Has(dest, k) ::
      Get(Merged(dest, from), k) == if Has(from, k) then Get(from, k) else Get(dest, k)
    decreases |from|
  {
    if from != [] {
      var n := |from| - 1;
      var init := from[..n];
      DistinctKeysPrefix(from, n);
      MergedSpec(dest, init);
      var t := Merged(dest, init);
      var (k, v) := from[n];
      assert from == init + [from[n]];
      DistinctKeysBefore(from, n);
      HasKeys(t, k);
      HasKeys(dest, k);
      forall k' | Has(dest, k')
        ensures Get(Merged(dest, from), k') == if Has(from, k') then Get(from, k') else Get(dest, k')
      {
        GetAppend(init, from[n], k');
      }
    }
  }

  /** Helper: on a name outside `inherited`, accepting the inherited names
      changes nothing. */
  lemma {:induction false} MergeWithAgrees(dest: Obj, from: Props, inherited: set<string>, k: string)
    requires k !in inherited
    ensures Has(MergeWith(dest, from, inherited), k) <==> Has(MergeWith(dest, from, {}), k)
    ensures Get(MergeWith(dest, from, inherited), k) == Get(MergeWith(dest, from, {}), k)
    decreases |from|
  {
    if from != [] {
      MergeWithAgrees(dest, from[..|from| - 1], inherited, k);
    }
  }

  /** merge as written agrees with the intended merge on every name outside
      `Object.prototype`: such a name is in the result exactly when `dest` owns
      it, with `from`'s value when `from` has it and `dest`'s otherwise. */
  lemma MergedAsWrittenSpec(dest: Obj, from: Obj)
    ensures forall k | k !in ObjectPrototypeNames ::
              (Has(MergedAsWritten(dest, from), k) <==> Has(dest, k))
              && (Has(dest, k) ==> Get(MergedAsWritten(dest, from), k)
                                     == if Has(from, k) then Get(from, k) else Get(dest, k))
  {
    MergedSpec(dest, from);
    forall k | k !in ObjectPrototypeNames
      ensures (Has(MergedAsWritten(dest, from), k) <==> Has(dest, k))
              && (Has(dest, k) ==> Get(MergedAsWritten(dest, from), k)
                                     == if Has(from, k) then Get(from, k) else Get(dest, k))
    {
      MergeWithAgrees(dest, from, ObjectPrototypeNames, k);
      HasKeys(Merged(dest, from), k);
      HasKeys(dest, k);
    }
  }

  /** Helper: a name the `in` test accepts without `dest` owning it is kept
      with `from`'s value. */
  lemma {:induction false} MergeWithKeepsAccepted(dest: Obj, from: Obj, inherited: set<string>, k: string)
    requires k in inherited && Has(from, k)
    ensures Has(MergeWith(dest, from, inherited), k) && Get(MergeWith(dest, from, inherited), k) == Get(from, k)
    decreases |from|
  {
    var n := |from| - 1;
    var init := from[..n];
    DistinctKeysPrefix(from, n);
    assert from == init + [from[n]];
    GetAppend(init, from[n], k);
    DistinctKeysBefore(from, n);
    if from[n].0 != k {
      MergeWithKeepsAccepted(dest, init, inherited, k);
    }
  }

  /** As written, a property of `from` named like a member of
      `Object.prototype` survives into the result although `dest` has no such
      own property; the intended merge drops it. */
  lemma MergeAsWrittenKeepsInherited(dest: Obj, from: Obj, k: string)
    requires k in ObjectPrototypeNames && Has(from, k) && !Has(dest, k)
    ensures Has(MergedAsWritten(dest, from), k) && Get(MergedAsWritten(dest, from), k) == Get(from, k)
    ensures !Has(Merged(dest, from), k)
  {
    MergeWithKeepsAccepted(dest, from, ObjectPrototypeNames, k);
    MergedSpec(dest, from);
    HasKeys(Merged(dest, from), k);
    HasKeys(dest, k);
  }

  /** The concrete case: merging `{toString: "x"}` over the client defaults'
      first key yields an own `toString` property. */
  lemma MergeAsWrittenExample()
    ensures var dest: Obj := [("apiKey", Null)];
            var from: Obj := [("toString", Str("x"))];
            Keys(MergedAsWritten(dest, from)) == ["apiKey", "toString"]
            && Keys(Merged(dest, from)) == ["apiKey"]
  {
    var dest: Obj := [("apiKey", Null)];
    var from: Obj := [("toString", Str("x"))];
    assert from[..0] == [];
    assert !Has(dest, "toString");
  }
}

=== FILE: nonce.dfy ===
/** `createNonce(size)` (gigyasdk.js:38-54): `size` symbols drawn from a fixed
    alphabet of 62 letters and digits. The random draw
    `Math.floor(Math.random() * 62)` is supplied as `draw`, the index chosen
    for each position. */
module Nonce {
  import opened Uri

  const Lower: string := "abcdefghijklmnopqrstuvwxyz"
  const Upper: string := "ABCDEFGHIJKLMNOPQRSTUVWXYZ"
  const Digits: string := "0123456789"

  /** The `chars` table of createNonce, in its order. */
  const Alphabet: string := Lower + Upper + Digits

  /** A value of `Math.floor(Math.random() * chars.length)`. */
  newtype CharIndex = x: int | 0 <= x < 62

  /** Helper: the alphabet is a run of lower-case letters, a run of upper-case
      letters and a run of digits. */
  lemma AlphabetAt(i: int)
    requires 0 <= i < 62
    ensures |Alphabet| == 62
    ensures Alphabet[i] == if i < 26 then ('a' as int + i) as char
                           else if i < 52 then ('A' as int + (i - 26)) as char
                           else ('0' as int + (i - 52)) as char
  {
    assert forall j | 0 <= j < 26 :: Lower[j] == ('a' as int + j) as char;
    assert forall j | 0 <= j < 26 :: Upper[j] == ('A' as int + j) as char;
    assert forall j | 0 <= j < 10 :: Digits[j] == ('0' as int + j) as char;
    if i < 26 {
      assert Alphabet[i] == Lower[i];
    } else if i < 52 {
      assert Alphabet[i] == Upper[i - 26];
    } else {
      assert Alphabet[i] == Digits[i - 52];
    }
  }

  /** The alphabet holds 62 different symbols, and they are exactly the ASCII
      letters and digits. */
  lemma AlphabetIsAlphanumeric()
    ensures |Alphabet| == 62
    ensures forall i, j | 0 <= i < j < 62 :: Alphabet[i] != Alphabet[j]
    ensures forall c: char :: c in Alphabet <==> IsAlpha(c) || IsDigit(c)
  {
    AlphabetAt(0);
    forall i, j | 0 <= i < j < 62 ensures Alphabet[i] != Alphabet[j] {
      AlphabetAt(i);
      AlphabetAt(j);
    }
    forall c: char | c in Alphabet ensures IsAlpha(c) || IsDigit(c) {
      var i :| 0 <= i < 62 && Alphabet[i] == c;
      AlphabetAt(i);
    }
    forall c: char | IsAlpha(c) || IsDigit(c) ensures c in Alphabet {
      var i := if 'a' <= c <= 'z' then c as int - 'a' as int
               else if 'A' <= c <= 'Z' then 26 + (c as int - 'A' as int)
               else 52 + (c as int - '0' as int);
      AlphabetAt(i);
      assert Alphabet[i] == c;
    }
  }

  /** The nonce made from the first `size` draws; no symbols when `size` is not positive. */
  function NonceOf(size: int, draw: nat -> CharIndex): (nonce: string)
    ensures |nonce| == if size < 0 then 0 else size
    ensures forall i | 0 <= i < |nonce| :: nonce[i] == Alphabet[draw(i) as int]
  {
    seq(if size < 0 then 0 else size, i requires 0 <= i => Alphabet[draw(i) as int])
  }

  /** createNonce's counted loop filling `result`, then `result.join('')`. */
  method CreateNonce(size: int, draw: nat -> CharIndex) returns (nonce: string)
    ensures nonce == NonceOf(size, draw)
  {
    var result: seq<char> := [];
    var i := 0;
    while i < size
      invariant 0 <= i && (i <= size || i == 0)
      invariant |result| == i
      invariant forall j | 0 <= j < i :: result[j] == Alphabet[draw(j) as int]
    {
      result := result + [Alphabet[draw(i) as int]];
      i := i + 1;
    }
    nonce := result;
  }

  /** A nonce of any size consists of ASCII letters and digits only. */
  lemma NonceIsAlphanumeric(size: int, draw: nat -> CharIndex)
    ensures forall c | c in NonceOf(size, draw) :: IsAlpha(c) || IsDigit(c)
  {
    AlphabetIsAlphanumeric();
    var nonce := NonceOf(size, draw);
    forall c | c in nonce ensures IsAlpha(c) || IsDigit(c) {
      var i :| 0 <= i < |nonce| && nonce[i] == c;
      assert c in Alphabet;
    }
  }
}

=== FILE: ordering.dfy ===
/** `Array.prototype.sort()` with no comparator, as createRequestSignature uses
    it on the encoded `name=value` strings (gigyasdk.js:131). Strings are compared
    character by character by code; on the ASCII strings the encoder produces
    this is the UTF-16 code-unit order JavaScript uses. */
module Ordering {

  /** `a` sorts no later than `b`: lexicographic order on character codes. */
  predicate Below(a: string, b: string)
  {
    |a| == 0 || (|b| != 0 && (a[0] < b[0] || (a[0] == b[0] && Below(a[1..], b[1..]))))
  }

  lemma {:induction false} BelowReflexive(a: string)
    ensures Below(a, a)
  {
    if |a| != 0 {
      BelowReflexive(a[1..]);
    }
  }

  lemma {:induction false} BelowTotal(a: string, b: string)
    ensures Below(a, b) || Below(b, a)
  {
    if |a| != 0 && |b| != 0 && a[0] == b[0] {
      BelowTotal(a[1..], b[1..]);
    }
  }

  lemma {:induction false} BelowAntisymmetric(a: string, b: string)
    requires Below(a, b) && Below(b, a)
    ensures a == b
  {
    if |a| != 0 && |b| != 0 {
      BelowAntisymmetric(a[1..], b[1..]);
      assert a == [a[0]] + a[1..] && b == [b[0]] + b[1..];
    }
  }

  lemma {:induction false} BelowTransitive(a: string, b: string, c: string)
    requires Below(a, b) && Below(b, c)
    ensures Below(a, c)
  {
    if |a| != 0 && a[0] == b[0] && b[0] == c[0] {
      BelowTransitive(a[1..], b[1..], c[1..]);
    }
  }

  predicate Sorted(s: seq<string>)
  {
    forall i, j | 0 <= i < j < |s| :: Below(s[i], s[j])
  }

  /** Helper: insert one string into a sorted sequence. */
  function Insert(x: string, s: seq<string>): (r: seq<string>)
    requires Sorted(s)
    ensures Sorted(r)
    ensures multiset(r) == multiset(s) + multiset{x}
  {
    if s == [] then [x]
    else if Below(x, s[0]) then
      LeastBelowAll(x, s);
      ConsSorted(x, s);
      [x] + s
    else
      var t := Insert(x, s[1..]);
      HeadBelowInserted(x, s, t);
      ConsSorted(s[0], t);
      assert s == [s[0]] + s[1..];
      [s[0]] + t
  }

  /** Helper: a sorted sequence stays sorted under a head below all its elements. */
  lemma ConsSorted(h: string, t: seq<string>)
    requires Sorted(t)
    requires forall i | 0 <= i < |t| :: Below(h, t[i])
    ensures Sorted([h] + t)
  {
    var r := [h] + t;
    forall i, j | 0 <= i < j < |r| ensures Below(r[i], r[j]) {
      assert r[j] == t[j - 1];
      if i > 0 { assert r[i] == t[i - 1]; }
    }
  }

  /** Helper: what is below the least element of a sorted sequence is below all. */
  lemma LeastBelowAll(x: string, s: seq<string>)
    requires Sorted(s) && s != [] && Below(x, s[0])
    ensures forall j | 0 <= j < |s| :: Below(x, s[j])
  {
    forall j | 0 <= j < |s| ensures Below(x, s[j]) {
      if j > 0 { BelowTransitive(x, s[0], s[j]); }
    }
  }

  /** Helper: the head of `s` stays below everything once `x`, which is not
      below it, joins the tail. */
  lemma HeadBelowInserted(x: string, s: seq<string>, t: seq<string>)
    requires Sorted(s) && s != [] && !Below(x, s[0])
    requires multiset(t) == multiset(s[1..]) + multiset{x}
    ensures forall i | 0 <= i < |t| :: Below(s[0], t[i])
  {
    BelowTotal(x, s[0]);
    forall i | 0 <= i < |t| ensures Below(s[0], t[i]) {
      assert t[i] in multiset(t);
      if t[i] != x {
        assert t[i] in multiset(s[1..]);
        var j :| 0 <= j < |s[1..]| && s[1..][j] == t[i];
        assert s[j + 1] == t[i];
      }
    }
  }

  /** The sorted arrangement of `s`, built by insertion. */
  function Sort(s: seq<string>): (r: seq<string>)
    ensures Sorted(r)
    ensures multiset(r) == multiset(s)
  {
    if s == [] then [] else
    assert s == [s[0]] + s[1..];
    Insert(s[0], Sort(s[1..]))
  }

  lemma SortedTail(a: seq<string>)
    requires Sorted(a) && a != []
    ensures Sorted(a[1..])
  {
    forall i, j | 0 <= i < j < |a[1..]| ensures Below(a[1..][i], a[1..][j]) {
      assert a[1..][i] == a[i + 1] && a[1..][j] == a[j + 1];
    }
  }

  lemma SortedHeadIsLeast(a: seq<string>, x: string)
    requires Sorted(a) && x in multiset(a)
    ensures Below(a[0], x)
  {
    var j :| 0 <= j < |a| && a[j] == x;
    if j == 0 { BelowReflexive(x); }
  }

  lemma MultisetTail(a: seq<string>, b: seq<string>)
    requires a != [] && b != [] && a[0] == b[0] && multiset(a) == multiset(b)
    ensures multiset(a[1..]) == multiset(b[1..])
  {
    assert a == [a[0]] + a[1..] && b == [b[0]] + b[1..];
    assert multiset(a[1..]) == multiset(a) - multiset{a[0]};
    assert multiset(b[1..]) == multiset(b) - multiset{b[0]};
  }

  /** There is only one sorted arrangement of a multiset of strings. */
  lemma {:induction false} SortedUnique(a: seq<string>, b: seq<string>)
    requires Sorted(a) && Sorted(b) && multiset(a) == multiset(b)
    ensures a == b
  {
    if a == [] {
      assert |multiset(b)| == 0;
    } else {
      assert |b| == |multiset(b)| == |multiset(a)| == |a|;
      assert a[0] in multiset(b) && b[0] in multiset(a);
      SortedHeadIsLeast(a, b[0]);
      SortedHeadIsLeast(b, a[0]);
      BelowAntisymmetric(a[0], b[0]);
      MultisetTail(a, b);
      SortedTail(a);
      SortedTail(b);
      SortedUnique(a[1..], b[1..]);
      assert a == [a[0]] + a[1..] && b == [b[0]] + b[1..];
    }
  }

  /** Sorting forgets the order of its input: inputs that are rearrangements
      of each other sort to the same sequence. */
  lemma SortIgnoresOrder(s: seq<string>, t: seq<string>)
    requires multiset(s) == multiset(t)
    ensures Sort(s) == Sort(t)
  {
    SortedUnique(Sort(s), Sort(t));
  }
}

=== FILE: response.dfy ===
/** How `raw` hands a parsed response to the callback (gigyasdk.js:271-276):
    a response whose `errorCode` is truthy is passed as the error, anything
    else as the result after a null error. */
module Response {
  import opened JsValues

  /** A value `JSON.parse` can return. Members keep their textual order. */
  datatype Json =
    | JNull
    | JBool(b: bool)
    | JNum(n: real)
    | JStr(s: string)
    | JArr(items: seq<Json>)
    | JObj(members: seq<(string, Json)>)

  datatype Option<T> = None | Some(value: T)

  /** `obj[name]` on a parsed object: `JSON.parse` keeps the last of several
      members with the same name; `None` stands for `undefined`. */
  function Member(members: seq<(string, Json)>, name: string): Option<Json>
  {
    if members == [] then None
    else if members[|members| - 1].0 == name then Some(members[|members| - 1].1)
    else Member(members[..|members| - 1], name)
  }

  /** ToBoolean of a parsed value: null, false, 0 and "" are falsy; arrays
      and objects, even empty ones, are truthy. */
  predicate Truthy(j: Json)
  {
    match j
    case JNull => false
    case JBool(b) => b
    case JNum(n) => n != 0.0
    case JStr(s) => s != ""
    case _ => true
  }

  /** ToBoolean of `result.errorCode`: an absent member reads as `undefined`. */
  predicate HasErrorCode(result: Json)
  {
    result.JObj? && match Member(result.members, "errorCode")
                    case None => false
                    case Some(code) => Truthy(code)
  }

  /** What happens once the body is parsed: `callback(result)`,
      `callback(null, result)`, or the TypeError that reading `errorCode` of
      `null` throws inside the `end` handler. */
  datatype Delivery = Failed(result: Json) | Succeeded(result: Json) | Threw(error: JsError)

  function Classify(result: Json): (d: Delivery)
    ensures d.Threw? <==> result == JNull
    ensures d.Failed? <==> HasErrorCode(result)
    ensures d.Succeeded? <==> result != JNull && !HasErrorCode(result)
    ensures !d.Threw? ==> d.result == result
  {
    match result
    case JNull => Threw(TypeError("Cannot read properties of null (reading 'errorCode')"))
    case JObj(_) => if HasErrorCode(result) then Failed(result) else Succeeded(result)
    case _ => Succeeded(result)
  }

  /** The arguments the callback receives. */
  function CallbackArgs(d: Delivery): seq<Json>
    requires !d.Threw?
  {
    match d
    case Failed(r) => [r]
    case Succeeded(r) => [JNull, r]
  }

  /** A caller testing its first argument, the Node.js convention, sees an
      error exactly when the response carries a truthy `errorCode`, and
      otherwise finds the response as the second argument. */
  lemma CallbackConvention(result: Json)
    requires result != JNull
    ensures var args := CallbackArgs(Classify(result));
            && (Truthy(args[0]) <==> HasErrorCode(result))
            && (!HasErrorCode(result) ==> |args| == 2 && args[1] == result)
            && (HasErrorCode(result) ==> args == [result])
  {
  }

  /** `Member` finds the last member with that name, and `None` when there is none. */
  lemma {:induction false} MemberIsLast(members: seq<(string, Json)>, name: string)
    ensures Member(members, name).None? <==> forall i | 0 <= i < |members| :: members[i].0 != name
    ensures Member(members, name).Some? ==>
              exists i | 0 <= i < |members| ::
                && members[i] == (name, Member(members, name).value)
                && forall j | i < j < |members| :: members[j].0 != name
  {
    if members != [] {
      var n := |members| - 1;
      var init := members[..n];
      MemberIsLast(init, name);
      assert forall i | 0 <= i < n :: init[i] == members[i];
      if members[n].0 != name && Member(init, name).Some? {
        var i :| 0 <= i < n && init[i] == (name, Member(init, name).value)
                 && forall j | i < j < n :: init[j].0 != name;
        assert members[i] == (name, Member(members, name).value);
      }
    }
  }

  /** Gigya reports success with `errorCode` 0, which is falsy: such a
      response is delivered as a result, while any other number is an error. */
  lemma ErrorCodeZeroSucceeds(members: seq<(string, Json)>, code: real)
    ensures Classify(JObj(members + [("errorCode", JNum(code))])).Succeeded? <==> code == 0.0
  {
    var ms := members + [("errorCode", JNum(code))];
    assert ms[|ms| - 1] == ("errorCode", JNum(code));
  }
}

=== FILE: signature.dfy ===
/** `createRequestSignature(options)` (gigyasdk.js:116-138): the signature
    base string in the style of section 3.4.1 of RFC 5849, handed to
    `createSignature` (HMAC-SHA1 of section 3.4.2 of RFC 5849, then base64),
    which this model takes as the parameter `sign`. */
module Signature {
  import opened JsValues
  import opened Uri
  import opened Encoding
  import opened Ordering

  /** The option names createRequestSignature reads. */
  const SslKey: string := "ssl"
  const ServiceKey: string := "service"
  const DomainKey: string := "domain"
  const MethodKey: string := "method"
  const ReqMethodKey: string := "reqMethod"
  const SecretKey: string := "secret"

  /** `createSignature(string, key)` for a string `key`: base64 HMAC-SHA1 of
      `string` under the base64-decoded `key`. */
  type Signer = (string, string) -> string

  /** The TypeError of `new Buffer(key, 'base64')` when `key` is not a
      string: a number is refused as the `string` argument, any other value as
      the first argument of `Buffer.from`. */
  function SecretTypeError(key: JsValue): JsError
    requires !key.Str?
  {
    match key
    case Num(n) => TypeError("The \"string\" argument must be of type string. Received type number (" + IntToString(n) + ")")
    case Bool(_) => TypeError(BufferFromRefusal + "Received type boolean (" + ToStr(key) + ")")
    case _ => TypeError(BufferFromRefusal + "Received " + ToStr(key))
  }

  /** The start of `Buffer.from`'s refusal of a value it cannot convert. */
  const BufferFromRefusal: string :=
    "The first argument must be of type string or an instance of Buffer, ArrayBuffer, or Array or an Array-like Object. "

  /** `createSignature(string, key)`: a key that is not a string throws. */
  function CreateSignature(base: string, key: JsValue, sign: Signer): (r: Result<string>)
    ensures r.Ok? <==> key.Str?
    ensures key.Str? ==> r.value == sign(base, key.s)
  {
    match key
    case Str(k) => Ok(sign(base, k))
    case _ => Err(SecretTypeError(key))
  }

  /** `encode(name) + '=' + encode(value)` for one parameter. */
  function EncodedPair(p: (string, JsValue)): string
  {
    Encode(Str(p.0)) + "=" + Encode(p.1)
  }

  /** The encoded pairs, in property order. */
  function Pairs(params: Props): seq<string>
  {
    Map(EncodedPair, params)
  }

  /** `xs.map(f)`. */
  function Map<T, U>(f: T -> U, xs: seq<T>): (ys: seq<U>)
    ensures |ys| == |xs|
  {
    if xs == [] then [] else [f(xs[0])] + Map(f, xs[1..])
  }

  /** `options.ssl === true`. */
  predicate IsSsl(opts: Props)
  {
    Get(opts, SslKey) == Bool(true)
  }

  function Scheme(ssl: bool): string
  {
    if ssl then "https://" else "http://"
  }

  /** `[options.service, options.domain].join('.')`. */
  function HostOf(opts: Props): string
  {
    JoinPart(Get(opts, ServiceKey)) + "." + JoinPart(Get(opts, DomainKey))
  }

  /** `'/' + [options.service, options.method].join('.')`. */
  function PathOf(opts: Props): string
  {
    "/" + JoinPart(Get(opts, ServiceKey)) + "." + JoinPart(Get(opts, MethodKey))
  }

  /** The base string for HTTP method `reqMethod`: the upper-cased method, the
      encoded URL and the encoded, sorted, `&`-joined parameter pairs, joined by `&`. */
  function BaseString(reqMethod: string, opts: Props, params: Props): string
  {
    ToUpperCase(reqMethod) + "&"
      + Encode(Str(Scheme(IsSsl(opts)) + HostOf(opts) + PathOf(opts))) + "&"
      + Encode(Str(Join("&", Sort(Pairs(params)))))
  }

  /** The TypeError of `options.reqMethod.toUpperCase()` when `reqMethod` is
      not a string: reading a property of `undefined` or `null`, or calling
      the missing method of a number or boolean. */
  function MethodTypeError(reqMethod: JsValue): JsError
    requires !reqMethod.Str?
  {
    if reqMethod.Undefined? || reqMethod.Null? then
      TypeError("Cannot read properties of " + ToStr(reqMethod) + " (reading 'toUpperCase')")
    else TypeError("options.reqMethod.toUpperCase is not a function")
  }

  /** What createRequestSignature returns, or the TypeError it throws: first
      that of `toUpperCase` on a `reqMethod` that is not a string, then that of
      `createSignature` on a `secret` that is not a string. */
  function RequestSignatureOf(opts: Props, params: Props, sign: Signer): Result<string>
  {
    match Get(opts, ReqMethodKey)
    case Str(m) => CreateSignature(BaseString(m, opts, params), Get(opts, SecretKey), sign)
    case _ => Err(MethodTypeError(Get(opts, ReqMethodKey)))
  }

  /** The loop of createRequestSignature that pushes one encoded pair per
      own property of `options.params`, in property order. */
  method PushPairs(params: Props) returns (pairs: seq<string>)
    ensures pairs == Pairs(params)
  {
    pairs := [];
    for i := 0 to |params|
      invariant pairs == Pairs(params[..i])
    {
      MapSnoc(EncodedPair, params, i);
      pairs := pairs + [EncodedPair(params[i])];
    }
    MapWhole(EncodedPair, params);
  }

  /** createRequestSignature: collect the encoded pairs, sort and join them,
      encode the URL, compose the base string and sign it. */
  method CreateRequestSignature(opts: Props, params: Props, sign: Signer) returns (r: Result<string>)
    ensures r == RequestSignatureOf(opts, params, sign)
  {
    var domain := HostOf(opts);
    var path := PathOf(opts);
    var proto := Scheme(false);
    if Get(opts, SslKey) == Bool(true) {
      proto := Scheme(true);
    }
    var pairs := PushPairs(params);
    var joined := Encode(Str(Join("&", Sort(pairs))));
    var url := Encode(Str(proto + domain + path));
    match Get(opts, ReqMethodKey) {
      case Str(m) =>
        var base := ToUpperCase(m) + "&" + url + "&" + joined;
        r := CreateSignature(base, Get(opts, SecretKey), sign);
      case _ =>
        r := Err(MethodTypeError(Get(opts, ReqMethodKey)));
    }
  }

  /** Helper: an encoded part of the base string is the RFC 5849 encoding of
      its text and holds no `&`. */
  lemma EncodedPart(s: string)
    ensures Encode(Str(s)) == PercentEncode(s)
    ensures '&' !in PercentEncode(s)
  {
    EncodeStrIsPercentEncode(s);
    NoAmpersandInPercentEncode(s);
  }

  lemma EncodeStrIsPercentEncode(s: string)
    ensures Encode(Str(s)) == PercentEncode(s)
  {
    EncodeIsPercentEncode(s);
  }

  lemma NoAmpersandInPercentEncode(s: string)
    ensures '&' !in PercentEncode(s)
  {
    PercentEncodeAlphabet(s);
    assert !EncodedChar('&');
  }

  /** The three parts of the base string: the URL part is the RFC 5849
      encoding of scheme, host and path (the scheme is `https://` exactly when
      `ssl === true`); the parameter part is the RFC 5849 encoding of the
      `&`-joined pairs, sorted and a rearrangement of the parameters' own
      pairs. Neither encoded part contains `&`, so the two separators are the
      only ones after the method. */
  lemma BaseStringParts(reqMethod: string, opts: Props, params: Props)
    ensures var url := Scheme(IsSsl(opts)) + HostOf(opts) + PathOf(opts);
            var ps := Join("&", Sort(Pairs(params)));
            && BaseString(reqMethod, opts, params)
               == ToUpperCase(reqMethod) + "&" + PercentEncode(url) + "&" + PercentEncode(ps)
            && '&' !in PercentEncode(url) && '&' !in PercentEncode(ps)
    ensures Sorted(Sort(Pairs(params))) && multiset(Sort(Pairs(params))) == multiset(Pairs(params))
  {
    EncodedPart(Scheme(IsSsl(opts)) + HostOf(opts) + PathOf(opts));
    EncodedPart(Join("&", Sort(Pairs(params))));
  }

  lemma {:induction false} MapAppend<T, U>(f: T -> U, a: seq<T>, b: seq<T>)
    ensures Map(f, a + b) == Map(f, a) + Map(f, b)
  {
    if a == [] {
      assert a + b == b;
    } else {
      assert (a + b)[0] == a[0];
      assert (a + b)[1..] == a[1..] + b;
      MapAppend(f, a[1..], b);
    }
  }

  /** Helper: one more element of the input, one more of the image. */
  lemma MapSnoc<T, U>(f: T -> U, xs: seq<T>, i: nat)
    requires i < |xs|
    ensures Map(f, xs[..i + 1]) == Map(f, xs[..i]) + [f(xs[i])]
  {
    MapAppend(f, xs[..i], [xs[i]]);
    assert xs[..i + 1] == xs[..i] + [xs[i]];
  }

  lemma MapWhole<T, U>(f: T -> U, xs: seq<T>)
    ensures Map(f, xs[..|xs|]) == Map(f, xs)
  {
    assert xs[..|xs|] == xs;
  }

  lemma SplitAt<T>(q: seq<T>, j: nat)
    requires j < |q|
    ensures q == q[..j] + ([q[j]] + q[j + 1..])
  {
  }

  lemma MultisetOfThree<U>(x: seq<U>, y: U, z: seq<U>)
    ensures multiset(x + ([y] + z)) == multiset(x + z) + multiset{y}
  {
  }

  /** Helper: taking one element out takes its image out. */
  lemma MapRemove<T, U>(f: T -> U, q: seq<T>, j: nat)
    requires j < |q|
    ensures multiset(Map(f, q)) == multiset(Map(f, q[..j] + q[j + 1..])) + multiset{f(q[j])}
  {
    var a, b := q[..j], q[j + 1..];
    SplitAt(q, j);
    MapAppend(f, a, [q[j]] + b);
    MapAppend(f, [q[j]], b);
    MapAppend(f, a, b);
    MultisetOfThree(Map(f, a), f(q[j]), Map(f, b));
  }

  /** Helper: taking one element out of a sequence. */
  lemma MultisetRemove<T>(q: seq<T>, j: nat)
    requires j < |q|
    ensures multiset(q[..j] + q[j + 1..]) == multiset(q) - multiset{q[j]}
  {
    SplitAt(q, j);
    MultisetOfThree(q[..j], q[j], q[j + 1..]);
  }

  /** Helper: matching the first element of `p` with an equal element of
      its rearrangement `q` leaves rearrangements of each other. */
  lemma PermutationStep<T>(p: seq<T>, q: seq<T>, j: nat)
    requires multiset(p) == multiset(q) && p != [] && j < |q| && q[j] == p[0]
    ensures multiset(p[1..]) == multiset(q[..j] + q[j + 1..])
  {
    MultisetRemove(q, j);
    assert p == [p[0]] + p[1..];
    assert multiset(p) == multiset{p[0]} + multiset(p[1..]);
  }

  /** Rearranging a sequence rearranges its image. */
  lemma {:induction false} MapPermutation<T, U>(f: T -> U, p: seq<T>, q: seq<T>)
    requires multiset(p) == multiset(q)
    ensures multiset(Map(f, p)) == multiset(Map(f, q))
  {
    if p == [] {
      assert |multiset(q)| == 0;
    } else {
      assert p[0] in multiset(q);
      var j :| 0 <= j < |q| && q[j] == p[0];
      PermutationStep(p, q, j);
      MapPermutation(f, p[1..], q[..j] + q[j + 1..]);
      MapRemove(f, q, j);
      assert Map(f, p) == [f(p[0])] + Map(f, p[1..]);
    }
  }

  /** The base string, and so the signature, does not depend on the order in
      which the parameters were inserted. */
  lemma BaseStringIgnoresOrder(reqMethod: string, opts: Props, p: Props, q: Props, sign: Signer)
    requires multiset(p) == multiset(q)
    ensures BaseString(reqMethod, opts, p) == BaseString(reqMethod, opts, q)
    ensures RequestSignatureOf(opts, p, sign) == RequestSignatureOf(opts, q, sign)
  {
    MapPermutation(EncodedPair, p, q);
    SortIgnoresOrder(Pairs(p), Pairs(q));
  }

  /** Two parameter objects with the same own properties and values give the
      same signature, whatever order the caller inserted them in. */
  lemma SignatureIgnoresInsertionOrder(opts: Props, p: Obj, q: Obj, sign: Signer)
    requires forall k :: Has(p, k) <==> Has(q, k)
    requires forall k :: Get(p, k) == Get(q, k)
    ensures RequestSignatureOf(opts, p, sign) == RequestSignatureOf(opts, q, sign)
  {
    SameEntriesPermutation(p, q);
    BaseStringIgnoresOrder("", opts, p, q, sign);
  }
}

=== FILE: uri.dfy ===
/** The runtime facilities the library leans on for escaping and casing:
    `encodeURIComponent` (section 19.2.6.5 of ECMA-262), `String.prototype.toUpperCase`
    restricted to ASCII letters, and `querystring.stringify` with its default
    separators. */
module Uri {
  import opened JsValues

  const HexDigits: string := "0123456789ABCDEF"

  predicate IsAlpha(c: char) { 'a' <= c <= 'z' || 'A' <= c <= 'Z' }

  predicate IsDigit(c: char) { '0' <= c <= '9' }

  predicate IsAscii(s: string) { forall c | c in s :: c < 128 as char }

  /** The characters `encodeURIComponent` leaves alone (uriUnreserved of ECMA-262). */
  predicate UriUnreserved(c: char)
  {
    IsAlpha(c) || IsDigit(c) || c in "-_.!~*'()"
  }

  /** The UTF-8 encoding of one Unicode scalar value, as a sequence of octets. */
  function Utf8(c: char): (bs: seq<int>)
    ensures 1 <= |bs| <= 4
    ensures forall i | 0 <= i < |bs| :: 0 <= bs[i] < 256
    ensures c < 128 as char ==> bs == [c as int]
  {
    var cp := c as int;
    if cp < 0x80 then [cp]
    else if cp < 0x800 then [0xC0 + cp / 64, 0x80 + cp % 64]
    else if cp < 0x1_0000 then [0xE0 + cp / 4096, 0x80 + (cp / 64) % 64, 0x80 + cp % 64]
    else [0xF0 + cp / 262144, 0x80 + (cp / 4096) % 64, 0x80 + (cp / 64) % 64, 0x80 + cp % 64]
  }

  /** "%" followed by two upper-case hexadecimal digits. */
  function PercentOctet(b: int): (s: string)
    requires 0 <= b < 256
    ensures |s| == 3 && s[0] == '%'
    ensures forall c | c in s[1..] :: c in HexDigits
  {
    ['%', HexDigits[b / 16], HexDigits[b % 16]]
  }

  function PercentOctets(bs: seq<int>): (s: string)
    requires forall i | 0 <= i < |bs| :: 0 <= bs[i] < 256
    ensures forall c | c in s :: c == '%' || c in HexDigits
  {
    if bs == [] then "" else PercentOctet(bs[0]) + PercentOctets(bs[1..])
  }

  function EncodeURIChar(c: char): string
  {
    if UriUnreserved(c) then [c] else PercentOctets(Utf8(c))
  }

  /** `encodeURIComponent(s)`. The URIError it throws on a lone surrogate is
      not modelled: Dafny strings hold scalar values only. */
  function EncodeURIComponent(s: string): string
  {
    if s == [] then "" else EncodeURIChar(s[0]) + EncodeURIComponent(s[1..])
  }

  /** `s.toUpperCase()` on ASCII letters; every other character is kept. */
  function ToUpperCase(s: string): (u: string)
    ensures |u| == |s|
    ensures forall i | 0 <= i < |s| :: u[i] == if 'a' <= s[i] <= 'z' then s[i] - 'a' + 'A' else s[i]
  {
    if s == [] then "" else
    [if 'a' <= s[0] <= 'z' then s[0] - 'a' + 'A' else s[0]] + ToUpperCase(s[1..])
  }

  /** How `querystring.stringify` renders a value: strings as they are, finite
      numbers and booleans in their usual form, everything else as "". */
  function StringifyPrimitive(v: JsValue): string
  {
    match v
    case Str(s) => s
    case Num(n) => IntToString(n)
    case Bool(b) => if b then "true" else "false"
    case _ => ""
  }

  function QueryPairs(o: Props): (ps: seq<string>)
    ensures |ps| == |o|
    ensures forall i | 0 <= i < |o| ::
      ps[i] == EncodeURIComponent(o[i].0) + "=" + EncodeURIComponent(StringifyPrimitive(o[i].1))
  {
    if o == [] then []
    else [EncodeURIComponent(o[0].0) + "=" + EncodeURIComponent(StringifyPrimitive(o[0].1))] + QueryPairs(o[1..])
  }

  /** `querystring.stringify(o)`: escaped `key=value` pairs, in property order, joined by "&". */
  function Stringify(o: Props): string
  {
    Join("&", QueryPairs(o))
  }

  lemma HexDigitsAreAscii()
    ensures forall c | c in HexDigits :: c < 128 as char
  {
  }

  lemma AppendIsAscii(a: string, b: string)
    requires IsAscii(a) && IsAscii(b)
    ensures IsAscii(a + b)
  {
    assert forall c | c in a + b :: c in a || c in b;
  }

  lemma EncodeURICharIsAscii(c: char)
    ensures IsAscii(EncodeURIChar(c))
  {
    if !UriUnreserved(c) {
      HexDigitsAreAscii();
    }
  }

  lemma {:induction false} EncodeURIComponentIsAscii(s: string)
    ensures IsAscii(EncodeURIComponent(s))
  {
    if s != [] {
      EncodeURICharIsAscii(s[0]);
      EncodeURIComponentIsAscii(s[1..]);
      AppendIsAscii(EncodeURIChar(s[0]), EncodeURIComponent(s[1..]));
    }
  }

  lemma {:induction false} JoinIsAscii(sep: string, xs: seq<string>)
    requires IsAscii(sep)
    requires forall i | 0 <= i < |xs| :: IsAscii(xs[i])
    ensures IsAscii(Join(sep, xs))
  {
    if |xs| > 1 {
      JoinIsAscii(sep, xs[1..]);
      AppendIsAscii(xs[0], sep);
      AppendIsAscii(xs[0] + sep, Join(sep, xs[1..]));
    }
  }

  /** The serialised query string is pure ASCII, so its JavaScript `length`
      (UTF-16 code units) is also its length in octets on the wire. */
  lemma StringifyIsAscii(o: Props)
    ensures IsAscii(Stringify(o))
  {
    var ps := QueryPairs(o);
    forall i | 0 <= i < |ps| ensures IsAscii(ps[i]) {
      var k, v := EncodeURIComponent(o[i].0), EncodeURIComponent(StringifyPrimitive(o[i].1));
      EncodeURIComponentIsAscii(o[i].0);
      EncodeURIComponentIsAscii(StringifyPrimitive(o[i].1));
      AppendIsAscii(k, "=");
      AppendIsAscii(k + "=", v);
    }
    JoinIsAscii("&", ps);
  }
}
